=== FILE: README.md ===
# ADS-B operations replayer: a Dafny model

load-data.js replays a CSV file of aircraft landings and takeoffs (from
ADS-B Exchange) into a Kafka topic as Avro records. It reads the file in
order and starts at the first row whose time parses and whose local time
of day is at or after the local time of day at start-up; when no row
qualifies, nothing is published. Every later row whose time parses is
published after a wait equal to the gap to the previous such row, divided
by a speed factor and capped at a maximum. Every cell except `time` is
coerced into a field of the Avro record, whose own `time` is the publish
instant, and the record is keyed by the aircraft's ICAO hex code. The
model takes every scheduled publish to reach a connected producer: the
end of the file does not wait for the last one (see "## Left out").

This project models that core and proves properties of it:

- `Scheduler` is the `data` handler, as a step function over the clock
  `{started, prevRowTimeMs}` folded over the rows' parsed timestamps. It
  covers the decisions (drop an unparsed row, drop a row before start-up,
  anchor, wait), the delay arithmetic and the emission trace of a whole
  file. `SchedulerExamples` replays a file of rows at 00:00:04, 00:00:04
  and 00:00:09 UTC at several speeds and caps, and a file whose middle row
  has a time that does not parse.
- `Pump` is the handler driving the stream. It holds the log of
  pause / sleep / publish / resume actions, an automaton for the
  one-row-in-flight discipline, a loop (`Pump.Replay`) that runs the
  handler over a file, and the sequence of Kafka messages the file
  produces.
- `Normalize` and `Text` hold the cell coercions and the string built-ins
  they rest on:
  - `toNullableString`, `toIntOrNull` with `Number.parseInt`,
    `tfToBoolOrNull`, `yesNoToBoolOrNull` and `normalizeOperation`;
  - `String.prototype.trim` and `toLowerCase`.
- `Payload` covers `toAvroPayloadFromCsvRow` and the message-key rule. It
  also writes a payload back out as a CSV row and proves that reading the
  row back gives the payload again.
- `Civil` covers `msSinceMidnight`, following the local-time getters of
  ECMAScript section 21.4.1. It also covers the text rewrite in
  `parseCsvTimeToMs`.
- `Csv` defines the row type and `Wrappers` defines `Option`.

`Date.parse` is a parameter `dateParse: string -> Option<int>` (None for
NaN). The host's time zone is a parameter `zone: int -> int`, giving the
offset in milliseconds at each instant. `Date.now()` at publish time is a
parameter `now: nat -> int`.

A failed publish stops the replay. The handler attaches only
`.finally(() => stream.resume())` to the promise of `produceRowAvro`
(load-data.js:265-266 and 279-281) and discards the promise `.finally`
returns with `void`. `.finally` passes a rejection on, and nothing handles
it, so a rejected publish is an unhandled promise rejection, which ends a
Node.js (≥ 15) process by default. The model covers publishes that
settle and does not model that crash (see "Left out").

## Model

| member | source | states |
|---|---|---|
| Civil.MsSinceMidnight | load-data.js:82-87 | The hours·3600+minutes·60+seconds, times 1000, plus milliseconds, read through the local-time getters, always lies in [0, 86 400 000). It equals the local time value modulo one day. |
| Civil.TimeOfDayOnDay | load-data.js:82-87 | A local time `ms` past the midnight of any day reads as `ms`, on every day, before 1970 included. |
| Civil.ReplaceFirstSpace | load-data.js:77 | `replace(" ", "T")` keeps the length. It changes only the first space, into 'T', and changes the string whenever it contains a space. |
| Civil.IsoUtcOfCsvLayout | load-data.js:74-80 | A cell "YYYY-MM-DD hh:mm:ss" becomes "YYYY-MM-DDThh:mm:ssZ". |
| Civil.IsoUtcOfMissingCell | load-data.js:77 | A missing cell is `String(undefined)`, so `Date.parse` is handed "undefinedZ". |
| Text.Trim | load-data.js:91 | The result of `trim` starts and ends with non-whitespace, and is empty exactly when the input is all whitespace. |
| Text.TrimPadded | load-data.js:91 | Whatever whitespace surrounds an already trimmed string, `trim` gives that string back. |
| Text.TrimIdempotent | load-data.js:91 | Trimming twice is trimming once. |
| Text.LowerCharIffVariant | load-data.js:105 | One character lower-cases to a given lower-case ASCII letter exactly when it is that letter, its ASCII capital, or, for 'k', KELVIN SIGN. |
| Text.LowerEqualsIffSpells | load-data.js:105-107 | `s.toLowerCase() === w`, for a lower-case ASCII word `w`, holds exactly when every character of `s` is the matching character of `w` or one of its capitals (the ASCII capital, and KELVIN SIGN for 'k'). |
| Normalize.ToNullableString | load-data.js:89-93 | Null exactly for an absent or whitespace-only cell. Otherwise the trimmed cell, which is non-empty and has no whitespace at its ends. |
| Normalize.ToNullableStringIdempotent | load-data.js:89-93 | Applying `toNullableString` twice gives the result of applying it once. |
| Normalize.ToNullableStringPadded | load-data.js:89-93 | Any whitespace padding around a canonical string is removed and nothing else is. |
| Normalize.ParseInt | load-data.js:98 | `parseInt(s, 10)` is a number exactly when `s`, after leading whitespace, starts with a digit or with a sign followed by a digit. |
| Normalize.ToIntOrNull | load-data.js:95-100 | Null exactly when the cell is absent or its trimmed text has no leading base-10 integer. |
| Normalize.ParseIntShowInt | load-data.js:98 | Every integer written in decimal parses back to itself, whatever non-digit text follows it. |
| Normalize.ToIntOrNullShowInt | load-data.js:95-100 | Every integer written in decimal and padded with whitespace reads back as itself. |
| Normalize.DigitsValueShowNat | load-data.js:98 | The decimal digits of `n` have the value `n`. |
| Normalize.LeadingZerosValue | load-data.js:98 | Leading zeros do not change the value of a run of digits. |
| Normalize.ParseIntSignedDigits | load-data.js:98 | Any non-empty run of decimal digits, leading zeros included, after an optional '+' or '-' and followed by anything but a digit, parses to the value of the digits, negated after '-'. |
| Normalize.ToIntOrNullSignedDigits | load-data.js:95-100 | A whitespace-padded cell holding such a signed run of digits reads as that integer. |
| Normalize.ToIntOrNullLeadingZeros | load-data.js:95-100 | Any number of zeros between the optional sign and the decimal digits of `n` leave `n` unchanged: "0042" reads as 42, "+7" as 7 and "-007" as -7. |
| Normalize.KeywordSpells | load-data.js:102-126 | A cell, trimmed and lower-cased, equals a non-empty lower-case ASCII word exactly when the cell is present and its trimmed text spells that word with case ignored. |
| Normalize.KeywordOfWord | load-data.js:102-126 | A lower-case ASCII word reads as itself. |
| Normalize.TfToBoolOrNullMeaning | load-data.js:102-109 | True exactly for "t"/"true" and false exactly for "f"/"false", in any case, after trimming. Every other cell, absent and blank ones included, is null. |
| Normalize.TfRoundTrip | load-data.js:102-109 | Every case variant of "t", "true", "f" and "false", with any whitespace around it, reads as the boolean it names. |
| Normalize.YesNoToBoolOrNullMeaning | load-data.js:111-118 | True exactly for "yes" and false exactly for "no", in any case, after trimming. Everything else is null. |
| Normalize.YesNoRoundTrip | load-data.js:111-118 | Every case variant of "yes" and "no", with any whitespace around it, reads as its boolean. |
| Normalize.NormalizeOperationMeaning | load-data.js:120-127 | "landing" exactly for cells spelling landing, and "takeoff" exactly for cells spelling takeoff, in any case, after trimming. Every other cell is "unknown". |
| Normalize.OperationRoundTrip | load-data.js:120-127 | Every enum symbol, in any case and with any whitespace around it, normalises to that symbol. |
| Normalize.SpelledWordIsCanonical | load-data.js:102-126 | A case variant of a lower-case word has no whitespace at its ends. |
| Payload.Icao | load-data.js:133 | `String(row.icao \|\| "").trim()` is trimmed. It is empty exactly when the column is missing or blank. |
| Payload.ToAvroPayload | load-data.js:129-173 | The payload's `time` is the publish instant, not the row's time. Its `icao` is empty exactly when the icao cell is missing or blank. |
| Payload.ToAvroPayloadWellFormed | load-data.js:129-173 | Whatever the row holds, every string field of the payload is trimmed, and every nullable string field is null or non-empty. |
| Payload.MessageKey | load-data.js:311 | There is no key exactly when the icao cell is missing or the empty string. Otherwise the key is the payload's `icao`. |
| Payload.BlankIcaoGivesEmptyKey | load-data.js:311 | A cell of blanks is truthy, so it gives the key "" rather than no key. |
| Payload.StringCellRoundTrip | load-data.js:89-93 | A nullable string field written as a cell is read back by `toNullableString`. |
| Payload.IntCellRoundTrip | load-data.js:95-100 | An integer field written as a cell is read back by `toIntOrNull`. |
| Payload.TfCellRoundTrip | load-data.js:102-109 | A t/f field written as a cell is read back by `tfToBoolOrNull`. |
| Payload.YesNoCellRoundTrip | load-data.js:111-118 | A yes/no field written as a cell is read back by `yesNoToBoolOrNull`. |
| Payload.OperationCellRoundTrip | load-data.js:120-127 | An operation written as its symbol is read back by `normalizeOperation`. |
| Payload.PayloadRoundTrip | load-data.js:129-173 | A well-formed payload, written as a CSV row and published at its own `time`, is rebuilt field for field. |
| Payload.PayloadIgnoresTimeColumn | load-data.js:129-173 | The row's own time cell never reaches the payload. |
| Scheduler.ScaledDelay | load-data.js:271-275 | Every wait is at least 0 and, when the cap is set, at most the cap. It never exceeds the gap divided by the speed. It equals that quotient unless it is the cap. A timestamp at or before the previous one waits 0. |
| Scheduler.ScaledDelayMonotone | load-data.js:271-275 | Behind the same predecessor, a later row never waits less. |
| Scheduler.StartTod | load-data.js:245-246 | The start-up time of day lies within one day. |
| Scheduler.Step | load-data.js:251-283 | An unparsed row is dropped and leaves the clock alone. Before start, a row earlier in the day is dropped and the first one not earlier becomes the anchor. After start every parsed row waits the scaled delay. Every published row sets `prevRowTimeMs` to its own time. |
| Scheduler.DecisionsSnoc | load-data.js:251-283 | Each new row is one more step from the clock the earlier rows left behind. |
| Scheduler.DecisionAt | load-data.js:251-283 | The decision for row `i` is the step taken on it with the clock rows 0..i-1 left behind. |
| Scheduler.StartedIff | load-data.js:258-262 | `started` is true exactly when some row so far parsed and was not earlier in the day than start-up. |
| Scheduler.StartedStays | load-data.js:258-262 | Once true, `started` stays true for the rest of the file. |
| Scheduler.PrevIsLastParsed | load-data.js:271-272 | Once started, `prevRowTimeMs` is the time of the last row whose time parsed. |
| Scheduler.UnparsedIgnored | load-data.js:252-253 | A row whose time does not parse is dropped and changes neither `started` nor `prevRowTimeMs`. |
| Scheduler.EmitsIff | load-data.js:252-283 | A row is published exactly when its time parsed and it, or an earlier row, could anchor. After start, no row is dropped for its time of day. |
| Scheduler.AnchorIff | load-data.js:258-268 | Row `i` is the anchor exactly when it is the first row that parsed and is not earlier in the day than start-up. |
| Scheduler.AnchorUnique | load-data.js:258-268 | There is at most one anchor. |
| Scheduler.WaitFromPrevious | load-data.js:271-275 | Each wait is measured from the previous row whose time parsed. That row was itself published, and only unparsed rows lie between the two. |
| Scheduler.SkipBeforeCatchUp | load-data.js:258-268 | If the first `k` rows parse but are earlier in the day and row `k` is not, exactly those rows are dropped. Row `k` is then the anchor and waits nothing. |
| Scheduler.Emitted | load-data.js:264-281 | The trace lists only rows of the file. |
| Scheduler.EmittedIff | load-data.js:264-281 | The trace lists a row, with its wait, exactly when that row was published. |
| Scheduler.EmittedOrdered | load-data.js:264-281 | The trace follows the file order strictly. |
| Scheduler.EmittedSnoc | load-data.js:264-281 | The trace grows by the new row's emission, if it has one. |
| Scheduler.ScheduleSnoc | load-data.js:251-283 | Appending a row steps the clock once and adds that row's emission, if it has one. |
| Scheduler.ScheduleIff | load-data.js:252-283 | The schedule publishes exactly the rows whose time parsed, from the anchor on. |
| Scheduler.ScheduleDelaysBounded | load-data.js:271-275 | Every scheduled wait lies between 0 and the cap. |
| Scheduler.NoAnchorNoSchedule | load-data.js:258-262 | Without a row that could anchor, nothing is published. |
| Scheduler.ScheduleStartsAtAnchor | load-data.js:258-268 | The first publish is the anchor's, with zero wait. |
| Scheduler.FirstEligible | load-data.js:258-262 | Given a row that could anchor, there is a first such row. |
| SchedulerExamples.ExampleTimesOfDay | load-data.js:245-255 | On a UTC host started at midnight, start-up reads 0 and the row at 00:00:04 reads 4000. |
| SchedulerExamples.FirstRowAnchors | load-data.js:258-268 | That row anchors the replay with no wait. |
| SchedulerExamples.ThreeRows | load-data.js:251-283 | Rows at 00:00:04, 00:00:04 and 00:00:09 publish with waits 0, 0 and the scaled 5-second gap. |
| SchedulerExamples.ShippedSettings | load-data.js:11-12 | With SPEED 1 and MAX_DELAY_MS 10 000 the settings are valid, and the last of the three rows waits 5000 ms. |
| SchedulerExamples.DoubleSpeed | load-data.js:271-275 | At speed 2 the last row waits 2500 ms. |
| SchedulerExamples.TightCap | load-data.js:271-275 | A 1000 ms cap cuts the 5000 ms gap to 1000 ms. |
| SchedulerExamples.BadRowSkipped | load-data.js:252-272 | An unparsed row between two valid rows is skipped. The next wait is measured from the row before it. |
| Pump.CheckAppend | load-data.js:264-281 | Checking a log in two pieces is checking it whole. |
| Pump.PhaseAt | load-data.js:264-281 | In an accepted log, rows are read only while no publish is pending. Each publish starts from a paused stream with no other publish in flight. |
| Pump.RowEvents | load-data.js:258-281 | Each row's actions are accepted from a flowing stream and leave it flowing. A row's publish appears exactly when the row is published. |
| Pump.EventsDisciplined | load-data.js:264-281 | The log of a whole file is accepted and ends with the stream flowing. |
| Pump.PublishedAppend | load-data.js:264-281 | The publishes of a concatenated log are the publishes of its pieces, in order. |
| Pump.AnchorEvents | load-data.js:264-267 | The anchor's actions (read, pause, publish, resume) are accepted from a flowing stream, end flowing, and publish exactly that row. |
| Pump.WaitEvents | load-data.js:277-282 | A later row's actions (read, pause, sleep, publish, resume) are accepted from a flowing stream, end flowing, and publish exactly that row. |
| Pump.RowsOfAppend | load-data.js:264-281 | The rows of two traces one after the other are the rows of each, in order. |
| Pump.PublishOrder | load-data.js:264-281 | Publishes start in exactly the order of the emission trace. |
| Pump.LogSnoc | load-data.js:251-283 | One more row adds its emission to the trace and its actions to the log. |
| Pump.Replay | load-data.js:242-283 | The loop over a file computes the schedule. Its log keeps the one-in-flight discipline and publishes in schedule order. |
| Pump.TimesOfCsvLayout | load-data.js:252 | A row whose time cell reads "D hh:mm:ss", with a space-free date D, is timed by `Date.parse("DThh:mm:ssZ")`, so the file's times read as UTC. A row without a time cell is timed by `Date.parse("undefinedZ")`. |
| Pump.Messages | load-data.js:303-318 | One message per scheduled row. |
| Pump.MessagesInOrder | load-data.js:303-318 | Message `k` holds the key and payload of the `k`-th published row. Messages keep the file order. Every value is a well-formed payload stamped with its publish time. |

## Left out

- The Kafka producer and the schema registry are left out: connection, registration, Avro encoding, `send`, `flush` and `disconnect`. These are network I/O through foreign libraries. A publish is the event `Publish(row)` and a message value is the payload record itself.
- `Date.parse` is the parameter `dateParse`, because it is a foreign date parser. Only the text rewrite before it is modelled.
- The host time zone, daylight saving time included, is the parameter `zone`. The model does not compute zone rules.
- `setTimeout` is not modelled: neither its real timing nor its clamping of a fractional or zero delay to a whole millisecond of at least 1. A wait is the `real` value handed to it, and a division by `SPEED` is exact rather than IEEE floating point.
- Scheduler.ScaledDelay: with `MAX_DELAY_MS = null` (load-data.js:11, 274) the wait is uncapped, and the model hands on the full quotient. Node's `setTimeout` turns any delay above 2^31−1 ms (about 24.8 days) into 1 ms; the model does not apply that second clamp.
- Pump.Messages: assumes every scheduled publish reaches a connected producer. The `end` handler (load-data.js:285-292) runs `producer.flush()` and `producer.disconnect()` without waiting for the publish still pending from load-data.js:278-282. Once the file has been read, the stream can emit `end` right after the last `data` event, although that handler paused it. The last row's publish, armed up to `MAX_DELAY_MS` earlier, can then start after the disconnect: the row is lost, or its rejection ends the process. Stream and producer timing are not modelled.
- A rejected publish is not modelled. It is an unhandled promise rejection that ends the process, and its only effect would be to truncate the trace.
- The csv-parser stream is replaced by a sequence of rows read in order. Its buffering, the header line, quoting and columns beyond the ones read are left out; pause and resume are the `Pause` and `Resume` log events.
- Signal handlers, `process.exit`, environment checks, dotenv and console logging are left out. They are runtime plumbing with no effect on which rows are published or when.
- The Avro schema literal (load-data.js:16-71) is static data and is represented by the `AvroPayload` datatype.
- Normalize.ParseInt: integers are unbounded. JavaScript numbers lose precision above 2^53, and the schema's `int` fields (`year`, `elev`) hold only 32 bits.
- Text.LowerChar: lower-cases ASCII capitals and KELVIN SIGN only. Every other character keeps its case. This is exact for comparisons with the lower-case ASCII words the normalisers use, but not for `toLowerCase` in general.
- Scheduler.Config.Valid: requires a positive speed and a non-negative cap. With a speed of 0 JavaScript would compute an infinite or NaN delay; the shipped constants meet the requirement.

=== FILE: civil.dfy ===
/**
 Time values as load-data.js sees them: epoch milliseconds, the local
 time-of-day read through the `Date` getters, and the rewrite that turns a
 CSV time cell into the ISO-8601 text handed to `Date.parse`.
 */
module Civil {
  import opened Wrappers

  const MsPerSecond: int := 1000
  const MsPerMinute: int := 60_000
  const MsPerHour: int := 3_600_000
  const MsPerDay: int := 86_400_000

  /** The local clock fields of ECMAScript section 21.4.1 (HourFromTime,
      MinFromTime, SecFromTime, msFromTime) for the local time value `local`,
      which is the epoch time plus the zone offset in force. Dafny's `/` and
      `%` are Euclidean, so for a positive divisor they agree with the
      `floor` and `modulo` of that section also before 1970. */
  function Hours(local: int): int { (local / MsPerHour) % 24 }
  function Minutes(local: int): int { (local / MsPerMinute) % 60 }
  function Seconds(local: int): int { (local / MsPerSecond) % 60 }
  function Millis(local: int): int { local % MsPerSecond }

  /** `msSinceMidnight(new Date(t))` where `offset` is the local zone's
      offset from UTC at `t`, in milliseconds: the local wall-clock time of
      day, which is the local time value reduced modulo one day. */
  function MsSinceMidnight(t: int, offset: int): (r: int)
    ensures 0 <= r < MsPerDay
    ensures r == (t + offset) % MsPerDay
  {
    var local := t + offset;
    DayDecomposition(local);
    (Hours(local) * 3600 + Minutes(local) * 60 + Seconds(local)) * 1000 + Millis(local)
  }

  /** A local time `ms` past the midnight that starts local day `day` reads
      as `ms` since midnight, whatever the day. */
  lemma TimeOfDayOnDay(t: int, offset: int, day: int, ms: int)
    requires 0 <= ms < MsPerDay && t + offset == day * MsPerDay + ms
    ensures MsSinceMidnight(t, offset) == ms
  {
    ModUnique(t + offset, MsPerDay, day, ms);
  }

  /** Reducing modulo `a * b` keeps the digit in base `a` above the units. */
  lemma ModSplit(x: int, a: int, b: int)
    requires a > 0 && b > 0
    ensures x % (a * b) == a * ((x / a) % b) + x % a
  {
    var q := x / a;
    var r := x % a;
    var hi := q / b;
    var lo := q % b;
    assert x == a * q + r;
    assert q == b * hi + lo;
    MulDistributes(a, b, hi, lo);
    MulBelow(a, b, lo);
    ModUnique(x, a * b, hi, a * lo + r);
  }

  lemma MulDistributes(a: int, b: int, hi: int, lo: int)
    ensures a * (b * hi + lo) == (a * b) * hi + a * lo
  {
  }

  lemma MulBelow(a: int, b: int, lo: int)
    requires a > 0 && 0 <= lo < b
    ensures 0 <= a * lo <= a * b - a
  {
    assert a * lo <= a * (b - 1);
  }

  /** Euclidean division has a unique remainder. */
  lemma ModUnique(x: int, d: int, k: int, r: int)
    requires d > 0 && 0 <= r < d && x == d * k + r
    ensures x % d == r
  {
    var j := k - x / d;
    assert x == d * (x / d) + x % d;
    assert d * j == x % d - r by {
      assert d * j == d * k - d * (x / d);
    }
    if j > 0 {
      MulGrows(d, j);
    } else if j < 0 {
      MulGrows(d, -j);
    }
  }

  lemma {:induction false} MulGrows(d: int, n: int)
    requires d > 0 && n >= 1
    ensures d * n >= d
  {
    if n > 1 {
      MulGrows(d, n - 1);
      assert d * n == d * (n - 1) + d;
    }
  }

  /** The four clock fields put back together give the time of day. */
  lemma DayDecomposition(local: int)
    ensures (Hours(local) * 3600 + Minutes(local) * 60 + Seconds(local)) * 1000 + Millis(local)
            == local % MsPerDay
  {
    ModSplit(local, MsPerHour, 24);
    ModSplit(local, MsPerMinute, 60);
    ModSplit(local, MsPerSecond, 60);
  }

  /** Position of the first space in `s`, or `|s|` when there is none. */
  function FirstSpace(s: string): (i: nat)
    ensures i <= |s| && ' ' !in s[..i]
    ensures i < |s| ==> s[i] == ' '
  {
    if s == [] || s[0] == ' ' then 0
    else
      var i := 1 + FirstSpace(s[1..]);
      assert s[..i] == [s[0]] + s[1..][..i - 1];
      i
  }

  /** The rewrite in `parseCsvTimeToMs`: the first space becomes 'T' (only
      the first: `String.prototype.replace` with a string pattern replaces
      one occurrence). */
  function ReplaceFirstSpace(s: string): (r: string)
    ensures |r| == |s|
    ensures forall i :: 0 <= i < |s| && r[i] != s[i] ==> s[i] == ' ' && r[i] == 'T' && ' ' !in s[..i]
    ensures ' ' in s ==> r != s
  {
    var i := FirstSpace(s);
    if i == |s| then s
    else
      var r := s[..i] + "T" + s[i + 1..];
      assert r[i] == 'T';
      assert forall k :: 0 <= k < |s| && k != i ==> r[k] == s[k];
      assert forall k :: 0 <= k < |s| && k > i ==> ' ' in s[..k] by {
        forall k | 0 <= k < |s| && k > i ensures ' ' in s[..k] {
          assert s[..k][i] == ' ';
        }
      }
      r
  }

  /** The ISO-8601 text `parseCsvTimeToMs` hands to `Date.parse`: a space
      replaced by 'T' and "Z" appended, so that the time reads as UTC. A
      missing cell is the string "undefined", as `String(undefined)` gives. */
  function IsoUtc(cell: Option<string>): string
  {
    ReplaceFirstSpace(cell.GetOr("undefined")) + "Z"
  }

  /** `parseCsvTimeToMs`: `dateParse` is `Date.parse`, with None for NaN. */
  function ParseCsvTime(dateParse: string -> Option<int>, cell: Option<string>): Option<int> {
    dateParse(IsoUtc(cell))
  }

  /** With no space before it, the separating space is the one replaced. */
  lemma ReplaceFirstSpaceAt(date: string, time: string)
    requires ' ' !in date
    ensures ReplaceFirstSpace(date + " " + time) == date + "T" + time
  {
    var s := date + " " + time;
    var i := FirstSpace(s);
    assert s[|date|] == ' ';
    assert s[..i] == date && s[i + 1..] == time;
  }

  /** The rewrite turns the CSV layout "YYYY-MM-DD hh:mm:ss" into UTC ISO
      text "YYYY-MM-DDThh:mm:ssZ". */
  lemma IsoUtcOfCsvLayout(date: string, time: string)
    requires ' ' !in date
    ensures IsoUtc(Some(date + " " + time)) == date + "T" + time + "Z"
  {
    ReplaceFirstSpaceAt(date, time);
  }

  /** A missing cell is `String(undefined)`, which has no space to replace:
      `Date.parse` is handed "undefinedZ". */
  lemma IsoUtcOfMissingCell()
    ensures IsoUtc(None) == "undefinedZ"
  {
    var u := "undefined";
    var r := ReplaceFirstSpace(u);
    forall k | 0 <= k < |u| ensures r[k] == u[k] {
      assert u[k] != ' ';
    }
    assert r == u;
  }
}

=== FILE: csv.dfy ===
/**
 The CSV rows csv-parser yields for the operations file, keyed by column.
 */
module Csv {
  import opened Wrappers

  /** The columns of the operations file that the replay reads. Each
      constructor stands for the snake-case header of the same name, which
      is also the `row.<header>` property the code reads: `AcType` is
      `ac_type`, `FaaPia` is `faa_pia`, `IataCode` is `iata_code`. */
  datatype Column =
    | Time
    | Icao
    | Operation
    | Airport
    | Registration
    | Flight
    | AcType
    | Runway
    | FlightLink
    | Squawk
    | SignalType
    | Category
    | Year
    | Manufacturer
    | Model
    | Ownop
    | FaaPia
    | FaaLadd
    | ShortType
    | Mil
    | AptType
    | Name
    | Continent
    | IsoCountry
    | IsoRegion
    | Municipality
    | ScheduledService
    | IataCode
    | Elev

  /** Every column of the file. */
  const AllColumns: set<Column> := {
    Time,
    Icao,
    Operation,
    Airport,
    Registration,
    Flight,
    AcType,
    Runway,
    FlightLink,
    Squawk,
    SignalType,
    Category,
    Year,
    Manufacturer,
    Model,
    Ownop,
    FaaPia,
    FaaLadd,
    ShortType,
    Mil,
    AptType,
    Name,
    Continent,
    IsoCountry,
    IsoRegion,
    Municipality,
    ScheduledService,
    IataCode,
    Elev
  }

  lemma AllColumnsComplete(c: Column)
    ensures c in AllColumns
  {
  }

  /** One row: the text of each column the row has. A column the row does
      not have is absent (`undefined` in JavaScript). */
  type Row = map<Column, string>

  /** The cell of column `c`, None when the row lacks that column. */
  function Cell(row: Row, c: Column): (r: Option<string>)
    ensures r.Some? <==> c in row
    ensures r.Some? ==> r.value == row[c]
  {
    if c in row then Some(row[c]) else None
  }
}

=== FILE: normalize.dfy ===
/**
 The field coercions of load-data.js that turn one CSV cell (a string, or
 `undefined` when the column is missing) into a value of the Avro payload.
 */
module Normalize {
  import opened Wrappers
  import opened Text

  /** A string as `toNullableString` produces it: non-empty and trimmed. */
  predicate Canonical(s: string) {
    s != [] && Trimmed(s)
  }

  /** `toNullableString`: absent or whitespace-only cells become null,
      everything else is trimmed. */
  function ToNullableString(v: Option<string>): (r: Option<string>)
    ensures r.None? <==> v.None? || AllWhitespace(v.value)
    ensures r.Some? ==> Canonical(r.value) && r.value == Trim(v.value)
  {
    match v
    case None => None
    case Some(s) => var t := Trim(s); if t == [] then None else Some(t)
  }

  /** Applying `toNullableString` twice gives what applying it once gives. */
  lemma ToNullableStringIdempotent(v: Option<string>)
    ensures ToNullableString(ToNullableString(v)) == ToNullableString(v)
  {
    if ToNullableString(v).Some? {
      TrimIdempotent(v.value);
    }
  }

  /** Whitespace around a canonical string is all `toNullableString` removes. */
  lemma {:induction false} ToNullableStringPadded(pre: string, s: string, post: string)
    requires AllWhitespace(pre) && AllWhitespace(post) && Canonical(s)
    ensures ToNullableString(Some(pre + s + post)) == Some(s)
  {
    TrimPadded(pre, s, post);
  }

  // ---------------------------------------------------------------------
  // Integers: Number.parseInt(s, 10)
  // ---------------------------------------------------------------------

  predicate IsDigit(c: char) {
    '0' <= c <= '9'
  }

  function DigitValue(c: char): (d: nat)
    requires IsDigit(c)
    ensures d < 10
  {
    c as int - '0' as int
  }

  function DigitChar(d: nat): (c: char)
    requires d < 10
    ensures IsDigit(c) && DigitValue(c) == d
  {
    ('0' as int + d) as char
  }

  predicate AllDigits(s: string) {
    forall i :: 0 <= i < |s| ==> IsDigit(s[i])
  }

  /** Length of the longest prefix of `s` made of decimal digits. */
  function DigitPrefixLength(s: string): (n: nat)
    ensures n <= |s|
    ensures AllDigits(s[..n])
    ensures n < |s| ==> !IsDigit(s[n])
  {
    if |s| > 0 && IsDigit(s[0]) then
      var n := 1 + DigitPrefixLength(s[1..]);
      assert s[..n] == [s[0]] + s[1..][..n - 1];
      n
    else
      0
  }

  /** The number a string of decimal digits denotes (most significant first). */
  function DigitsValue(ds: string): nat
    requires AllDigits(ds)
  {
    if ds == [] then 0
    else DigitsValue(ds[..|ds| - 1]) * 10 + DigitValue(ds[|ds| - 1])
  }

  /** `s` begins with an optionally signed run of decimal digits, the thing
      `parseInt` needs to return a number rather than NaN. */
  predicate HasIntegerPrefix(s: string) {
    || (|s| > 0 && IsDigit(s[0]))
    || (|s| > 1 && (s[0] == '+' || s[0] == '-') && IsDigit(s[1]))
  }

  /** The longest run of decimal digits at the start of `s`, read as a
      number; None when `s` does not start with a digit. */
  function LeadingNat(s: string): (r: Option<nat>)
    ensures r.Some? <==> |s| > 0 && IsDigit(s[0])
  {
    var n := DigitPrefixLength(s);
    if n == 0 then None else Some(DigitsValue(s[..n]))
  }

  /** `Number.parseInt(s, 10)`: skips leading whitespace, reads an optional
      sign and the longest run of decimal digits after it, and ignores the
      rest; None stands for NaN. A negative zero is the integer 0. */
  function ParseInt(s: string): (r: Option<int>)
    ensures r.Some? <==> HasIntegerPrefix(TrimStart(s))
  {
    var t := TrimStart(s);
    if |t| > 0 && (t[0] == '+' || t[0] == '-') then
      match LeadingNat(t[1..])
      case None => None
      case Some(m) => var v: int := m; Some(if t[0] == '-' then -v else v)
    else
      match LeadingNat(t)
      case None => None
      case Some(m) => Some(m)
  }

  /** `toIntOrNull`: null for an absent or blank cell or one without a
      leading integer, otherwise the integer `parseInt` reads. */
  function ToIntOrNull(v: Option<string>): (r: Option<int>)
    ensures r.None? <==> v.None? || !HasIntegerPrefix(Trim(v.value))
  {
    match ToNullableString(v)
    case None => None
    case Some(s) => ParseInt(s)
  }

  /** Decimal rendering of a natural number, without leading zeros. */
  function ShowNat(n: nat): (s: string)
    ensures s != [] && AllDigits(s)
    ensures |s| > 1 ==> s[0] != '0'
  {
    if n < 10 then [DigitChar(n)]
    else
      var s := ShowNat(n / 10) + [DigitChar(n % 10)];
      assert s[0] == ShowNat(n / 10)[0];
      s
  }

  /** Decimal rendering of an integer, with a leading '-' when negative. */
  function ShowInt(n: int): string {
    if n < 0 then "-" + ShowNat(-n) else ShowNat(n)
  }

  lemma {:induction false} DigitsValueShowNat(n: nat)
    ensures DigitsValue(ShowNat(n)) == n
  {
    if n >= 10 {
      var s := ShowNat(n);
      assert s[..|s| - 1] == ShowNat(n / 10);
      DigitsValueShowNat(n / 10);
    }
  }

  lemma {:induction false} DigitPrefixOfDigits(ds: string, tail: string)
    requires AllDigits(ds)
    requires tail == [] || !IsDigit(tail[0])
    ensures DigitPrefixLength(ds + tail) == |ds|
  {
    if ds != [] {
      assert (ds + tail)[1..] == ds[1..] + tail;
      DigitPrefixOfDigits(ds[1..], tail);
    }
  }

  /** `parseInt` reads back what `ShowInt` wrote, and stops at the first
      character that cannot continue the number. */
  lemma ParseIntShowInt(n: int, tail: string)
    requires tail == [] || !IsDigit(tail[0])
    ensures ParseInt(ShowInt(n) + tail) == Some(n)
  {
    if n < 0 {
      assert ShowInt(n) == "-" + ShowNat(-n);
      ParseIntNegative(-n, tail);
    } else {
      assert ShowInt(n) == ShowNat(n);
      ParseIntNonNegative(n, tail);
    }
  }

  lemma ParseIntNonNegative(m: nat, tail: string)
    requires tail == [] || !IsDigit(tail[0])
    ensures ParseInt(ShowNat(m) + tail) == Some(m)
  {
    var s := ShowNat(m) + tail;
    LeadingNatShowNat(m, tail);
    assert s[0] == ShowNat(m)[0];
    NoWhitespaceStart(s);
    var t := TrimStart(s);
    assert t == s;
    assert !(|t| > 0 && (t[0] == '+' || t[0] == '-'));
    assert LeadingNat(t) == Some(m);
  }

  lemma ParseIntNegative(m: nat, tail: string)
    requires m > 0
    requires tail == [] || !IsDigit(tail[0])
    ensures ParseInt("-" + ShowNat(m) + tail) == Some(-(m as int))
  {
    var s := "-" + ShowNat(m) + tail;
    LeadingNatShowNat(m, tail);
    assert s[1..] == ShowNat(m) + tail;
    NoWhitespaceStart(s);
  }

  lemma NoWhitespaceStart(s: string)
    requires |s| > 0 && (IsDigit(s[0]) || s[0] == '-' || s[0] == '+')
    ensures TrimStart(s) == s
  {
  }

  lemma LeadingNatShowNat(m: nat, tail: string)
    requires tail == [] || !IsDigit(tail[0])
    ensures LeadingNat(ShowNat(m) + tail) == Some(m)
  {
    var ds := ShowNat(m);
    DigitsValueShowNat(m);
    DigitPrefixOfDigits(ds, tail);
    assert (ds + tail)[..|ds|] == ds;
  }

  /** Round trip: a cell holding a rendered integer, whitespace-padded,
      normalises back to that integer. */
  lemma ToIntOrNullShowInt(n: int, pre: string, post: string)
    requires AllWhitespace(pre) && AllWhitespace(post)
    ensures ToIntOrNull(Some(pre + ShowInt(n) + post)) == Some(n)
  {
    var s := ShowInt(n);
    assert s[0] != '\t' && s[|s| - 1] != '\t';
    ToNullableStringPadded(pre, s, post);
    ParseIntShowInt(n, []);
    assert s + [] == s;
  }

  /** A run of `k` zeros. */
  function Zeros(k: nat): string
  {
    seq(k, i => '0')
  }

  lemma {:induction false} ZerosValue(k: nat)
    ensures DigitsValue(Zeros(k)) == 0
  {
    if k > 0 {
      assert Zeros(k)[..k - 1] == Zeros(k - 1);
      ZerosValue(k - 1);
    }
  }

  /** Leading zeros do not change the value of a run of digits. */
  lemma {:induction false} LeadingZerosValue(k: nat, ds: string)
    requires AllDigits(ds)
    ensures AllDigits(Zeros(k) + ds) && DigitsValue(Zeros(k) + ds) == DigitsValue(ds)
    decreases |ds|
  {
    var z := Zeros(k) + ds;
    assert AllDigits(z) by {
      forall i | 0 <= i < |z| ensures IsDigit(z[i]) {
        if i >= k { assert z[i] == ds[i - k]; }
      }
    }
    if ds == [] {
      assert z == Zeros(k);
      ZerosValue(k);
    } else {
      var n := |ds| - 1;
      assert z[..|z| - 1] == Zeros(k) + ds[..n];
      assert z[|z| - 1] == ds[n];
      LeadingZerosValue(k, ds[..n]);
    }
  }

  /** The whole run of digits at the start is read, up to the first
      character that cannot continue it. */
  lemma LeadingNatDigits(ds: string, tail: string)
    requires ds != [] && AllDigits(ds)
    requires tail == [] || !IsDigit(tail[0])
    ensures LeadingNat(ds + tail) == Some(DigitsValue(ds))
  {
    DigitPrefixOfDigits(ds, tail);
    assert (ds + tail)[..|ds|] == ds;
    assert (ds + tail)[0] == ds[0];
  }

  /** `parseInt` reads any optionally signed run of decimal digits, leading
      zeros included, as the number the digits denote, and stops at the
      first character that cannot continue the run. */
  lemma ParseIntSignedDigits(s: string, sign: string, ds: string, tail: string)
    requires sign == "" || sign == "+" || sign == "-"
    requires ds != [] && AllDigits(ds)
    requires tail == [] || !IsDigit(tail[0])
    requires s == sign + ds + tail
    ensures ParseInt(s) == Some(if sign == "-" then -(DigitsValue(ds) as int) else DigitsValue(ds))
  {
    LeadingNatDigits(ds, tail);
    ParseIntAfterSign(s, sign, ds + tail, DigitsValue(ds));
  }

  /** An optional sign followed by text that starts with digits. */
  lemma ParseIntAfterSign(s: string, sign: string, body: string, n: nat)
    requires sign == "" || sign == "+" || sign == "-"
    requires s == sign + body && LeadingNat(body) == Some(n)
    ensures ParseInt(s) == Some(if sign == "-" then -(n as int) else n)
  {
    NoWhitespaceStart(s);
    if sign == "" {
      assert s == body;
    } else {
      assert s[1..] == body;
    }
  }

  /** A whitespace-padded cell holding an optionally signed run of digits
      reads as the integer the digits denote. */
  lemma ToIntOrNullSignedDigits(cell: string, sign: string, ds: string, pre: string, post: string)
    requires sign == "" || sign == "+" || sign == "-"
    requires ds != [] && AllDigits(ds)
    requires AllWhitespace(pre) && AllWhitespace(post)
    requires cell == pre + sign + ds + post
    ensures ToIntOrNull(Some(cell)) == Some(if sign == "-" then -(DigitsValue(ds) as int) else DigitsValue(ds))
  {
    var s := sign + ds;
    assert s[|s| - 1] == ds[|ds| - 1];
    assert s[0] == (if sign == "" then ds[0] else sign[0]);
    assert s[0] != '\t' && s[|s| - 1] != '\t';
    assert cell == pre + s + post;
    ToNullableStringPadded(pre, s, post);
    ParseIntSignedDigits(s, sign, ds, []);
  }

  /** Leading zeros in a cell: "0042" reads as 42, "+7" as 7 and "-007" as
      -7; in general any number of zeros before the decimal digits of `n`
      leave `n` unchanged. */
  lemma ToIntOrNullLeadingZeros(cell: string, sign: string, k: nat, n: nat, pre: string, post: string)
    requires sign == "" || sign == "+" || sign == "-"
    requires AllWhitespace(pre) && AllWhitespace(post)
    requires cell == pre + sign + Zeros(k) + ShowNat(n) + post
    ensures ToIntOrNull(Some(cell)) == Some(if sign == "-" then -(n as int) else n)
  {
    var ds := Zeros(k) + ShowNat(n);
    LeadingZerosValue(k, ShowNat(n));
    DigitsValueShowNat(n);
    assert cell == pre + sign + ds + post;
    ToIntOrNullSignedDigits(cell, sign, ds, pre, post);
  }

  // ---------------------------------------------------------------------
  // Booleans and the operation enum
  // ---------------------------------------------------------------------

  /** The cell as the boolean and enum normalisers compare it: trimmed,
      lower-cased, and null when blank or absent. */
  function Keyword(v: Option<string>): (r: Option<string>)
    ensures r.None? <==> ToNullableString(v).None?
  {
    match ToNullableString(v)
    case None => None
    case Some(s) => Some(Lower(s))
  }

  /** A cell reads as a non-empty keyword exactly when its trimmed text
      spells that keyword, ignoring case. */
  lemma KeywordSpells(v: Option<string>, word: string)
    requires word != [] && LowerAsciiWord(word)
    ensures Keyword(v) == Some(word) <==> v.Some? && SpellsIgnoringCase(Trim(v.value), word)
  {
    if v.Some? {
      LowerEqualsIffSpells(Trim(v.value), word);
    }
  }

  /** A lower-case word, written as it is, reads as itself. */
  lemma KeywordOfWord(word: string)
    requires word != [] && LowerAsciiWord(word)
    ensures Keyword(Some(word)) == Some(word)
  {
    assert Trim(word) == word by {
      assert SpellsIgnoringCase(word, word);
      SpelledWordIsCanonical(word, word);
      TrimPadded([], word, []);
      assert [] + word + [] == word;
    }
    assert Lower(word) == word;
    assert ToNullableString(Some(word)) == Some(word);
  }

  /** `tfToBoolOrNull`: "t"/"true" and "f"/"false" in any case, after
      trimming; everything else, blank and absent cells included, is null. */
  function TfToBoolOrNull(v: Option<string>): Option<bool> {
    var k := Keyword(v);
    if k == Some("t") || k == Some("true") then Some(true)
    else if k == Some("f") || k == Some("false") then Some(false)
    else None
  }

  /** Which cells `tfToBoolOrNull` reads as true and which as false. */
  lemma TfToBoolOrNullMeaning(v: Option<string>)
    ensures TfToBoolOrNull(v) == Some(true) <==>
      v.Some? && (SpellsIgnoringCase(Trim(v.value), "t") || SpellsIgnoringCase(Trim(v.value), "true"))
    ensures TfToBoolOrNull(v) == Some(false) <==>
      v.Some? && (SpellsIgnoringCase(Trim(v.value), "f") || SpellsIgnoringCase(Trim(v.value), "false"))
  {
    KeywordSpells(v, "t");
    KeywordSpells(v, "true");
    KeywordSpells(v, "f");
    KeywordSpells(v, "false");
  }

  /** `yesNoToBoolOrNull`: "yes" and "no" in any case, after trimming;
      everything else is null. */
  function YesNoToBoolOrNull(v: Option<string>): Option<bool> {
    var k := Keyword(v);
    if k == Some("yes") then Some(true)
    else if k == Some("no") then Some(false)
    else None
  }

  /** Which cells `yesNoToBoolOrNull` reads as true and which as false. */
  lemma YesNoToBoolOrNullMeaning(v: Option<string>)
    ensures YesNoToBoolOrNull(v) == Some(true) <==> v.Some? && SpellsIgnoringCase(Trim(v.value), "yes")
    ensures YesNoToBoolOrNull(v) == Some(false) <==> v.Some? && SpellsIgnoringCase(Trim(v.value), "no")
  {
    KeywordSpells(v, "yes");
    KeywordSpells(v, "no");
  }

  /** The symbols of the Avro enum `OperationType`. */
  datatype Operation = Landing | Takeoff | Unknown {
    function Symbol(): string {
      match this
      case Landing => "landing"
      case Takeoff => "takeoff"
      case Unknown => "unknown"
    }
  }

  /** `normalizeOperation`: "landing" and "takeoff" in any case, after
      trimming; every other cell, blank or absent, is `unknown`. */
  function NormalizeOperation(v: Option<string>): Operation {
    var k := Keyword(v);
    if k == Some("landing") then Landing
    else if k == Some("takeoff") then Takeoff
    else Unknown
  }

  /** Which cells `normalizeOperation` reads as landing and which as takeoff. */
  lemma NormalizeOperationMeaning(v: Option<string>)
    ensures NormalizeOperation(v) == Landing <==> v.Some? && SpellsIgnoringCase(Trim(v.value), "landing")
    ensures NormalizeOperation(v) == Takeoff <==> v.Some? && SpellsIgnoringCase(Trim(v.value), "takeoff")
  {
    KeywordSpells(v, "landing");
    KeywordSpells(v, "takeoff");
  }

  /** How the payload writes a boolean back into a t/f column. */
  function ShowTf(b: bool): string {
    if b then "t" else "f"
  }

  /** How the payload writes a boolean back into a yes/no column. */
  function ShowYesNo(b: bool): string {
    if b then "yes" else "no"
  }

  /** Round trip for t/f columns: any spelling of "t", "true", "f" or
      "false", in any case and with any whitespace around it, reads back as
      the boolean it names. */
  lemma TfRoundTrip(b: bool, long: bool, s: string, pre: string, post: string)
    requires AllWhitespace(pre) && AllWhitespace(post)
    requires SpellsIgnoringCase(s, if long then (if b then "true" else "false") else ShowTf(b))
    ensures TfToBoolOrNull(Some(pre + s + post)) == Some(b)
  {
    SpelledWordIsCanonical(s, if long then (if b then "true" else "false") else ShowTf(b));
    TrimPadded(pre, s, post);
    TfToBoolOrNullMeaning(Some(pre + s + post));
  }

  /** Round trip for yes/no columns. */
  lemma YesNoRoundTrip(b: bool, s: string, pre: string, post: string)
    requires AllWhitespace(pre) && AllWhitespace(post)
    requires SpellsIgnoringCase(s, ShowYesNo(b))
    ensures YesNoToBoolOrNull(Some(pre + s + post)) == Some(b)
  {
    SpelledWordIsCanonical(s, ShowYesNo(b));
    TrimPadded(pre, s, post);
    YesNoToBoolOrNullMeaning(Some(pre + s + post));
  }

  /** Round trip for the operation column: every enum symbol, in any case
      and with any whitespace around it, normalises to that symbol. */
  lemma OperationRoundTrip(op: Operation, s: string, pre: string, post: string)
    requires AllWhitespace(pre) && AllWhitespace(post)
    requires SpellsIgnoringCase(s, op.Symbol())
    ensures NormalizeOperation(Some(pre + s + post)) == op
  {
    SpelledWordIsCanonical(s, op.Symbol());
    TrimPadded(pre, s, post);
    NormalizeOperationMeaning(Some(pre + s + post));
    if op == Unknown {
      assert CaseVariant(s[0], 'u');
    }
  }

  /** A case variant of a lower-case word has no whitespace at its ends. */
  lemma SpelledWordIsCanonical(s: string, word: string)
    requires word != [] && SpellsIgnoringCase(s, word)
    requires 'a' <= word[0] <= 'z' && 'a' <= word[|word| - 1] <= 'z'
    ensures Canonical(s)
  {
    assert CaseVariant(s[0], word[0]);
    assert CaseVariant(s[|s| - 1], word[|word| - 1]);
  }
}

=== FILE: payload.dfy ===
/**
 The record published for one CSV row: the Avro value built by
 `toAvroPayloadFromCsvRow` and the message key chosen in `produceRowAvro`.
 */
module Payload {
  import opened Wrappers
  import opened Text
  import opened Normalize
  import opened Csv

  /** The Avro record `AdsbExchangeOperationEvent`; `Option` fields are the
      schema's `["null", T]` unions. */
  datatype AvroPayload = AvroPayload(
    time: int,
    icao: string,
    operation: Operation,
    airport: Option<string>,
    registration: Option<string>,
    flight: Option<string>,
    acType: Option<string>,
    runway: Option<string>,
    flightLink: Option<string>,
    squawk: Option<string>,
    signalType: Option<string>,
    category: Option<string>,
    year: Option<int>,
    manufacturer: Option<string>,
    model: Option<string>,
    ownop: Option<string>,
    faaPia: Option<bool>,
    faaLadd: Option<bool>,
    shortType: Option<string>,
    mil: Option<bool>,
    aptType: Option<string>,
    name: Option<string>,
    continent: Option<string>,
    isoCountry: Option<string>,
    isoRegion: Option<string>,
    municipality: Option<string>,
    scheduledService: Option<bool>,
    iataCode: Option<string>,
    elev: Option<int>
  )

  /** A nullable string field as `toNullableString` leaves it. */
  predicate CanonicalField(f: Option<string>) {
    f.Some? ==> Canonical(f.value)
  }

  /** Every string of the payload is trimmed and every nullable string
      field is either null or non-empty. */
  predicate WellFormed(p: AvroPayload) {
    && Trimmed(p.icao)
    && CanonicalField(p.airport) && CanonicalField(p.registration)
    && CanonicalField(p.flight) && CanonicalField(p.acType)
    && CanonicalField(p.runway) && CanonicalField(p.flightLink)
    && CanonicalField(p.squawk) && CanonicalField(p.signalType)
    && CanonicalField(p.category) && CanonicalField(p.manufacturer)
    && CanonicalField(p.model) && CanonicalField(p.ownop)
    && CanonicalField(p.shortType) && CanonicalField(p.aptType)
    && CanonicalField(p.name) && CanonicalField(p.continent)
    && CanonicalField(p.isoCountry) && CanonicalField(p.isoRegion)
    && CanonicalField(p.municipality) && CanonicalField(p.iataCode)
  }

  /** `String(row.icao || "").trim()`: the required icao string, empty when
      the column is missing or blank. */
  function Icao(row: Row): (r: string)
    ensures Trimmed(r)
    ensures r == [] <==> Column.Icao !in row || AllWhitespace(row[Column.Icao])
  {
    Trim(Cell(row, Column.Icao).GetOr(""))
  }

  /** `toAvroPayloadFromCsvRow(row, nowMs)`. The payload's `time` is the
      publish instant `nowMs`, not the row's own time column. */
  function ToAvroPayload(row: Row, nowMs: int): (p: AvroPayload)
    ensures p.time == nowMs
    ensures p.icao == [] <==> Column.Icao !in row || AllWhitespace(row[Column.Icao])
  {
    AvroPayload(
      time := nowMs,
      icao := Icao(row),
      operation := NormalizeOperation(Cell(row, Column.Operation)),
      airport := ToNullableString(Cell(row, Column.Airport)),
      registration := ToNullableString(Cell(row, Column.Registration)),
      flight := ToNullableString(Cell(row, Column.Flight)),
      acType := ToNullableString(Cell(row, Column.AcType)),
      runway := ToNullableString(Cell(row, Column.Runway)),
      flightLink := ToNullableString(Cell(row, Column.FlightLink)),
      squawk := ToNullableString(Cell(row, Column.Squawk)),
      signalType := ToNullableString(Cell(row, Column.SignalType)),
      category := ToNullableString(Cell(row, Column.Category)),
      year := ToIntOrNull(Cell(row, Column.Year)),
      manufacturer := ToNullableString(Cell(row, Column.Manufacturer)),
      model := ToNullableString(Cell(row, Column.Model)),
      ownop := ToNullableString(Cell(row, Column.Ownop)),
      faaPia := TfToBoolOrNull(Cell(row, Column.FaaPia)),
      faaLadd := TfToBoolOrNull(Cell(row, Column.FaaLadd)),
      shortType := ToNullableString(Cell(row, Column.ShortType)),
      mil := TfToBoolOrNull(Cell(row, Column.Mil)),
      aptType := ToNullableString(Cell(row, Column.AptType)),
      name := ToNullableString(Cell(row, Column.Name)),
      continent := ToNullableString(Cell(row, Column.Continent)),
      isoCountry := ToNullableString(Cell(row, Column.IsoCountry)),
      isoRegion := ToNullableString(Cell(row, Column.IsoRegion)),
      municipality := ToNullableString(Cell(row, Column.Municipality)),
      scheduledService := YesNoToBoolOrNull(Cell(row, Column.ScheduledService)),
      iataCode := ToNullableString(Cell(row, Column.IataCode)),
      elev := ToIntOrNull(Cell(row, Column.Elev))
    )
  }

  /** Whatever the row holds, the payload it gives is well formed. */
  lemma ToAvroPayloadWellFormed(row: Row, nowMs: int)
    ensures WellFormed(ToAvroPayload(row, nowMs))
  {
  }

  /** The message key of `produceRowAvro`: `row.icao` trimmed when the cell
      is present and non-empty, otherwise no key. A cell of blanks is
      truthy in JavaScript, so it gives the empty key "", not a missing one. */
  function MessageKey(row: Row): (k: Option<string>)
    ensures k.None? <==> Column.Icao !in row || row[Column.Icao] == ""
    ensures forall nowMs :: k.Some? ==> k.value == ToAvroPayload(row, nowMs).icao
    ensures forall nowMs :: k.None? ==> ToAvroPayload(row, nowMs).icao == ""
  {
    if Column.Icao in row && row[Column.Icao] != "" then Some(Trim(row[Column.Icao])) else None
  }

  /** An icao cell holding only blanks is published with the empty key. */
  lemma BlankIcaoGivesEmptyKey(row: Row)
    requires Column.Icao in row && row[Column.Icao] != [] && AllWhitespace(row[Column.Icao])
    ensures MessageKey(row) == Some("")
  {
  }

  // ---------------------------------------------------------------------
  // Writing a payload back as a CSV row
  // ---------------------------------------------------------------------

  function ShowString(f: Option<string>): string {
    f.GetOr("")
  }

  function ShowIntCell(f: Option<int>): string {
    if f.Some? then ShowInt(f.value) else ""
  }

  function ShowTfCell(f: Option<bool>): string {
    if f.Some? then ShowTf(f.value) else ""
  }

  function ShowYesNoCell(f: Option<bool>): string {
    if f.Some? then ShowYesNo(f.value) else ""
  }

  /** The text a well-formed payload writes into column `c`: null fields
      are empty cells, booleans are written "t"/"f" or "yes"/"no", and the
      time column (which the payload does not carry) is left empty. */
  function CellText(p: AvroPayload, c: Column): string {
    match c
    case Time => ""
    case Icao => p.icao
    case Operation => p.operation.Symbol()
    case Airport => ShowString(p.airport)
    case Registration => ShowString(p.registration)
    case Flight => ShowString(p.flight)
    case AcType => ShowString(p.acType)
    case Runway => ShowString(p.runway)
    case FlightLink => ShowString(p.flightLink)
    case Squawk => ShowString(p.squawk)
    case SignalType => ShowString(p.signalType)
    case Category => ShowString(p.category)
    case Year => ShowIntCell(p.year)
    case Manufacturer => ShowString(p.manufacturer)
    case Model => ShowString(p.model)
    case Ownop => ShowString(p.ownop)
    case FaaPia => ShowTfCell(p.faaPia)
    case FaaLadd => ShowTfCell(p.faaLadd)
    case ShortType => ShowString(p.shortType)
    case Mil => ShowTfCell(p.mil)
    case AptType => ShowString(p.aptType)
    case Name => ShowString(p.name)
    case Continent => ShowString(p.continent)
    case IsoCountry => ShowString(p.isoCountry)
    case IsoRegion => ShowString(p.isoRegion)
    case Municipality => ShowString(p.municipality)
    case ScheduledService => ShowYesNoCell(p.scheduledService)
    case IataCode => ShowString(p.iataCode)
    case Elev => ShowIntCell(p.elev)
  }

  /** The CSV row a well-formed payload would have come from. */
  function ToRow(p: AvroPayload): Row
  {
    map c | c in AllColumns :: CellText(p, c)
  }

  lemma StringCellRoundTrip(f: Option<string>)
    requires CanonicalField(f)
    ensures ToNullableString(Some(ShowString(f))) == f
  {
    if f.Some? {
      ToNullableStringPadded([], f.value, []);
      assert [] + f.value + [] == f.value;
    }
  }

  lemma IntCellRoundTrip(f: Option<int>)
    ensures ToIntOrNull(Some(ShowIntCell(f))) == f
  {
    if f.Some? {
      ToIntOrNullShowInt(f.value, [], []);
      assert [] + ShowInt(f.value) + [] == ShowInt(f.value);
    }
  }

  lemma TfCellRoundTrip(f: Option<bool>)
    ensures TfToBoolOrNull(Some(ShowTfCell(f))) == f
  {
    if f.Some? {
      KeywordOfWord(ShowTf(f.value));
    }
  }

  lemma YesNoCellRoundTrip(f: Option<bool>)
    ensures YesNoToBoolOrNull(Some(ShowYesNoCell(f))) == f
  {
    if f.Some? {
      KeywordOfWord(ShowYesNo(f.value));
    }
  }

  lemma OperationCellRoundTrip(op: Operation)
    ensures NormalizeOperation(Some(op.Symbol())) == op
  {
    KeywordOfWord(op.Symbol());
  }

  /** The icao and operation cells of the written row. */
  lemma ToRowRequiredCells(p: AvroPayload)
    ensures Cell(ToRow(p), Column.Icao) == Some(p.icao)
    ensures Cell(ToRow(p), Column.Operation) == Some(p.operation.Symbol())
  {
  }

  /** The flight cells of the written row. */
  lemma ToRowFlightCells(p: AvroPayload)
    ensures Cell(ToRow(p), Column.Airport) == Some(ShowString(p.airport))
    ensures Cell(ToRow(p), Column.Registration) == Some(ShowString(p.registration))
    ensures Cell(ToRow(p), Column.Flight) == Some(ShowString(p.flight))
    ensures Cell(ToRow(p), Column.AcType) == Some(ShowString(p.acType))
    ensures Cell(ToRow(p), Column.Runway) == Some(ShowString(p.runway))
  {
  }

  /** The tracking cells of the written row. */
  lemma ToRowTrackingCells(p: AvroPayload)
    ensures Cell(ToRow(p), Column.FlightLink) == Some(ShowString(p.flightLink))
    ensures Cell(ToRow(p), Column.Squawk) == Some(ShowString(p.squawk))
    ensures Cell(ToRow(p), Column.SignalType) == Some(ShowString(p.signalType))
    ensures Cell(ToRow(p), Column.Category) == Some(ShowString(p.category))
  {
  }

  /** The aircraft cells of the written row. */
  lemma ToRowAircraftCells(p: AvroPayload)
    ensures Cell(ToRow(p), Column.Manufacturer) == Some(ShowString(p.manufacturer))
    ensures Cell(ToRow(p), Column.Model) == Some(ShowString(p.model))
    ensures Cell(ToRow(p), Column.Ownop) == Some(ShowString(p.ownop))
    ensures Cell(ToRow(p), Column.ShortType) == Some(ShowString(p.shortType))
  {
  }

  /** The airport cells of the written row. */
  lemma ToRowAirportCells(p: AvroPayload)
    ensures Cell(ToRow(p), Column.AptType) == Some(ShowString(p.aptType))
    ensures Cell(ToRow(p), Column.Name) == Some(ShowString(p.name))
    ensures Cell(ToRow(p), Column.Continent) == Some(ShowString(p.continent))
    ensures Cell(ToRow(p), Column.IsoCountry) == Some(ShowString(p.isoCountry))
  {
  }

  /** The region and code cells of the written row. */
  lemma ToRowRegionCells(p: AvroPayload)
    ensures Cell(ToRow(p), Column.IsoRegion) == Some(ShowString(p.isoRegion))
    ensures Cell(ToRow(p), Column.Municipality) == Some(ShowString(p.municipality))
    ensures Cell(ToRow(p), Column.IataCode) == Some(ShowString(p.iataCode))
  {
  }

  /** The integer cells of the written row. */
  lemma ToRowNumberCells(p: AvroPayload)
    ensures Cell(ToRow(p), Column.Year) == Some(ShowIntCell(p.year))
    ensures Cell(ToRow(p), Column.Elev) == Some(ShowIntCell(p.elev))
  {
  }

  /** The boolean cells of the written row. */
  lemma ToRowFlagCells(p: AvroPayload)
    ensures Cell(ToRow(p), Column.FaaPia) == Some(ShowTfCell(p.faaPia))
    ensures Cell(ToRow(p), Column.FaaLadd) == Some(ShowTfCell(p.faaLadd))
    ensures Cell(ToRow(p), Column.Mil) == Some(ShowTfCell(p.mil))
    ensures Cell(ToRow(p), Column.ScheduledService) == Some(ShowYesNoCell(p.scheduledService))
  {
  }

  /** Round trip: a well-formed payload, written out as a CSV row and
      published at its own `time`, is rebuilt field for field. */
  lemma PayloadRoundTrip(p: AvroPayload)
    requires WellFormed(p)
    ensures ToAvroPayload(ToRow(p), p.time) == p
  {
    ToRowRequiredCells(p);
    ToRowFlightCells(p);
    ToRowTrackingCells(p);
    ToRowAircraftCells(p);
    ToRowAirportCells(p);
    ToRowRegionCells(p);
    ToRowNumberCells(p);
    ToRowFlagCells(p);
    TrimPadded([], p.icao, []);
    assert [] + p.icao + [] == p.icao;
    OperationCellRoundTrip(p.operation);
    StringCellRoundTrip(p.airport);
    StringCellRoundTrip(p.registration);
    StringCellRoundTrip(p.flight);
    StringCellRoundTrip(p.acType);
    StringCellRoundTrip(p.runway);
    StringCellRoundTrip(p.flightLink);
    StringCellRoundTrip(p.squawk);
    StringCellRoundTrip(p.signalType);
    StringCellRoundTrip(p.category);
    StringCellRoundTrip(p.manufacturer);
    StringCellRoundTrip(p.model);
    StringCellRoundTrip(p.ownop);
    StringCellRoundTrip(p.shortType);
    StringCellRoundTrip(p.aptType);
    StringCellRoundTrip(p.name);
    StringCellRoundTrip(p.continent);
    StringCellRoundTrip(p.isoCountry);
    StringCellRoundTrip(p.isoRegion);
    StringCellRoundTrip(p.municipality);
    StringCellRoundTrip(p.iataCode);
    IntCellRoundTrip(p.year);
    IntCellRoundTrip(p.elev);
    TfCellRoundTrip(p.faaPia);
    TfCellRoundTrip(p.faaLadd);
    TfCellRoundTrip(p.mil);
    YesNoCellRoundTrip(p.scheduledService);
  }

  /** The row's time column never reaches the payload. */
  lemma PayloadIgnoresTimeColumn(row: Row, cell: string, nowMs: int)
    ensures ToAvroPayload(row[Column.Time := cell], nowMs) == ToAvroPayload(row, nowMs)
  {
  }
}

=== FILE: pump.dfy ===
/**
 The replay as it drives the stream: the `data` handler pauses intake for
 every row it publishes, optionally arms a timer, publishes, and resumes
 intake only once the publish has settled. The event log records those
 actions in order; an automaton over the log states the one-in-flight
 discipline, and the loop in `Replay` is the handler run over a whole file.
 */
module Pump {
  import opened Wrappers
  import opened Civil
  import opened Csv
  import opened Payload
  import opened Scheduler

  /** The stream-side actions of the handler and the callbacks it arms. */
  datatype Event =
    | Read(row: nat)              // a `data` event delivers the row
    | Pause(row: nat)             // `stream.pause()`
    | Sleep(row: nat, delay: real) // `setTimeout(…, delay)` fires
    | Publish(row: nat)           // `produceRowAvro` starts for the row
    | Resume(row: nat)            // the publish settled: `stream.resume()`

  /** Where the stream stands: delivering rows, paused before a publish, or
      paused with one publish in flight. */
  datatype Phase = Flowing | Paused(row: nat) | InFlight(row: nat)

  /** The actions allowed in each phase, and the phase after them. */
  function Next(p: Phase, e: Event): Option<Phase> {
    match e
    case Read(_) => if p == Flowing then Some(Flowing) else None
    case Pause(r) => if p == Flowing then Some(Paused(r)) else None
    case Sleep(r, _) => if p == Paused(r) then Some(p) else None
    case Publish(r) => if p == Paused(r) then Some(InFlight(r)) else None
    case Resume(r) => if p == InFlight(r) then Some(Flowing) else None
  }

  /** The phase after the log, or None when some action was not allowed. */
  function Check(p: Phase, log: seq<Event>): Option<Phase>
    decreases |log|
  {
    if log == [] then Some(p)
    else
      match Next(p, log[0])
      case None => None
      case Some(q) => Check(q, log[1..])
  }

  /** Checking a log in two pieces. */
  lemma {:induction false} CheckAppend(p: Phase, a: seq<Event>, b: seq<Event>)
    ensures Check(p, a + b) == if Check(p, a).Some? then Check(Check(p, a).value, b) else None
    decreases |a|
  {
    if a != [] {
      assert (a + b)[0] == a[0] && (a + b)[1..] == a[1..] + b;
      if Next(p, a[0]).Some? {
        CheckAppend(Next(p, a[0]).value, a[1..], b);
      }
    } else {
      assert a + b == b;
    }
  }

  /** In an accepted log every row is read while nothing is paused, and every
      publish starts from a paused stream with no other publish in flight. */
  lemma PhaseAt(log: seq<Event>, a: int)
    requires Check(Flowing, log).Some? && 0 <= a < |log|
    ensures Check(Flowing, log[..a]).Some?
    ensures log[a].Read? ==> Check(Flowing, log[..a]) == Some(Flowing)
    ensures log[a].Publish? ==> Check(Flowing, log[..a]) == Some(Paused(log[a].row))
  {
    assert log == log[..a] + log[a..];
    CheckAppend(Flowing, log[..a], log[a..]);
    assert log[a..][0] == log[a];
  }

  /** What the handler does for row `i` once it has decided `d`. */
  function RowEvents(i: nat, d: Decision): (es: seq<Event>)
    ensures Check(Flowing, es) == Some(Flowing)
    ensures Published(es) == if d.Emits() then [i] else []
  {
    match d
    case Unparsed => [Read(i)]
    case BeforeStart => [Read(i)]
    case Anchor => AnchorEvents(i); [Read(i), Pause(i), Publish(i), Resume(i)]
    case Wait(delay) => WaitEvents(i, delay); [Read(i), Pause(i), Sleep(i, delay), Publish(i), Resume(i)]
  }

  /** The anchor row: read, pause, publish at once, resume once settled. */
  lemma AnchorEvents(i: nat)
    ensures var es := [Read(i), Pause(i), Publish(i), Resume(i)];
      Check(Flowing, es) == Some(Flowing) && Published(es) == [i]
  {
    var es := [Read(i), Pause(i), Publish(i), Resume(i)];
    assert Check(InFlight(i), es[3..]) == Some(Flowing);
    assert Check(Paused(i), es[2..]) == Some(Flowing);
    assert Check(Flowing, es[1..]) == Some(Flowing);
    assert es[..3][..2] == es[..2] && es[..2][..1] == es[..1] && es[..1][..0] == [];
    assert Published(es[..1]) == [];
    assert Published(es[..2]) == [];
    assert Published(es[..3]) == [i];
  }

  /** A later row: read, pause, sleep the delay, publish, resume. */
  lemma WaitEvents(i: nat, delay: real)
    ensures var es := [Read(i), Pause(i), Sleep(i, delay), Publish(i), Resume(i)];
      Check(Flowing, es) == Some(Flowing) && Published(es) == [i]
  {
    var es := [Read(i), Pause(i), Sleep(i, delay), Publish(i), Resume(i)];
    assert Check(InFlight(i), es[4..]) == Some(Flowing);
    assert Check(Paused(i), es[3..]) == Some(Flowing);
    assert Check(Paused(i), es[2..]) == Some(Flowing);
    assert Check(Flowing, es[1..]) == Some(Flowing);
    assert es[..4][..3] == es[..3] && es[..3][..2] == es[..2] && es[..2][..1] == es[..1] && es[..1][..0] == [];
    assert Published(es[..1]) == [];
    assert Published(es[..2]) == [];
    assert Published(es[..3]) == [];
    assert Published(es[..4]) == [i];
  }

  /** The log of a whole file, whose rows were decided `ds`. */
  function Events(ds: seq<Decision>): seq<Event> {
    if ds == [] then []
    else Events(ds[..|ds| - 1]) + RowEvents(|ds| - 1, ds[|ds| - 1])
  }

  /** The handler keeps the discipline over any file: the log is accepted
      and the stream is flowing again at the end. */
  lemma {:induction false} EventsDisciplined(ds: seq<Decision>)
    ensures Check(Flowing, Events(ds)) == Some(Flowing)
    decreases |ds|
  {
    if ds != [] {
      var n := |ds| - 1;
      EventsDisciplined(ds[..n]);
      CheckAppend(Flowing, Events(ds[..n]), RowEvents(n, ds[n]));
    }
  }

  /** The rows publishes start for, in log order. */
  function Published(log: seq<Event>): seq<nat> {
    if log == [] then []
    else Published(log[..|log| - 1]) + (if log[|log| - 1].Publish? then [log[|log| - 1].row] else [])
  }

  lemma {:induction false} PublishedAppend(a: seq<Event>, b: seq<Event>)
    ensures Published(a + b) == Published(a) + Published(b)
    decreases |b|
  {
    if b != [] {
      var n := |b| - 1;
      assert (a + b)[..|a + b| - 1] == a + b[..n];
      assert (a + b)[|a + b| - 1] == b[n];
      PublishedAppend(a, b[..n]);
    } else {
      assert a + b == a;
    }
  }

  /** The rows of an emission trace. */
  function RowsOf(es: seq<Emission>): seq<nat>
  {
    seq(|es|, k requires 0 <= k < |es| => es[k].row)
  }

  /** Publishes start in exactly the order of the emission trace. */
  lemma {:induction false} PublishOrder(ds: seq<Decision>)
    ensures Published(Events(ds)) == RowsOf(Emitted(ds))
    decreases |ds|
  {
    if ds != [] {
      var n := |ds| - 1;
      PublishOrder(ds[..n]);
      PublishedAppend(Events(ds[..n]), RowEvents(n, ds[n]));
      var last := if ds[n].Emits() then [Emission(n, ds[n].Delay())] else [];
      assert RowsOf(last) == if ds[n].Emits() then [n] else [];
      RowsOfAppend(Emitted(ds[..n]), last);
    }
  }

  /** The rows of two traces one after the other. */
  lemma RowsOfAppend(a: seq<Emission>, b: seq<Emission>)
    ensures RowsOf(a + b) == RowsOf(a) + RowsOf(b)
  {
    var l, r := RowsOf(a + b), RowsOf(a) + RowsOf(b);
    assert |l| == |r|;
    forall k | 0 <= k < |l| ensures l[k] == r[k] {
      if k < |a| {
        assert (a + b)[k] == a[k];
      } else {
        assert (a + b)[k] == b[k - |a|];
      }
    }
  }

  /** The trace and the log grow by one row's share. */
  lemma LogSnoc(ds: seq<Decision>, d: Decision)
    ensures Emitted(ds + [d]) == Emitted(ds) + if d.Emits() then [Emission(|ds|, d.Delay())] else []
    ensures Events(ds + [d]) == Events(ds) + RowEvents(|ds|, d)
  {
    assert (ds + [d])[..|ds|] == ds;
    EmittedSnoc(ds, d);
  }

  /** The handler run over the rows of a file whose parsed times are `ts`:
      it returns the log of stream actions and the emission trace. */
  method Replay(cfg: Config, ts: seq<Option<int>>) returns (log: seq<Event>, trace: seq<Emission>)
    requires cfg.Valid()
    ensures trace == Schedule(cfg, ts)
    ensures Check(Flowing, log) == Some(Flowing)
    ensures Published(log) == RowsOf(trace)
  {
    var clock := Waiting;
    log, trace := [], [];
    var i := 0;
    while i < |ts|
      invariant 0 <= i <= |ts|
      invariant clock == ClockAfter(cfg, ts[..i])
      invariant trace == Emitted(Decisions(cfg, ts[..i]))
      invariant log == Events(Decisions(cfg, ts[..i]))
    {
      var o := Step(cfg, clock, ts[i]);
      DecisionsSnoc(cfg, ts, i);
      LogSnoc(Decisions(cfg, ts[..i]), o.decision);
      assert o.clock == ClockAfter(cfg, ts[..i + 1]);
      if o.decision.Emits() {
        trace := trace + [Emission(i, o.decision.Delay())];
      }
      log := log + RowEvents(i, o.decision);
      clock := o.clock;
      i := i + 1;
    }
    assert ts[..|ts|] == ts;
    EventsDisciplined(Decisions(cfg, ts));
    PublishOrder(Decisions(cfg, ts));
  }

  // ---------------------------------------------------------------------
  // The messages that reach the topic
  // ---------------------------------------------------------------------

  /** One Kafka message: its key and its Avro value. */
  datatype Message = Message(key: Option<string>, value: AvroPayload)

  /** The parsed time of every row; `dateParse` is `Date.parse`. */
  function Times(dateParse: string -> Option<int>, rows: seq<Row>): seq<Option<int>>
  {
    seq(|rows|, i requires 0 <= i < |rows| => ParseCsvTime(dateParse, Cell(rows[i], Column.Time)))
  }

  /** A row whose time cell has the file's layout "YYYY-MM-DD hh:mm:ss" is
      timed by `Date.parse` of the ISO text "YYYY-MM-DDThh:mm:ssZ", so the
      file's times read as UTC; a row without a time cell is timed by
      `Date.parse("undefinedZ")`. */
  lemma TimesOfCsvLayout(dateParse: string -> Option<int>, rows: seq<Row>, i: nat, date: string, time: string)
    requires i < |rows| && ' ' !in date
    ensures Cell(rows[i], Column.Time) == Some(date + " " + time) ==>
      Times(dateParse, rows)[i] == dateParse(date + "T" + time + "Z")
    ensures Column.Time !in rows[i] ==> Times(dateParse, rows)[i] == dateParse("undefinedZ")
  {
    assert Times(dateParse, rows)[i] == ParseCsvTime(dateParse, Cell(rows[i], Column.Time));
    IsoUtcOfCsvLayout(date, time);
    IsoUtcOfMissingCell();
  }

  /** The messages a file produces, in publish order; `now(i)` is what
      `Date.now()` returns when row `i` is published. Every scheduled row is
      taken to reach a connected producer, the last one included. */
  function Messages(cfg: Config, dateParse: string -> Option<int>, rows: seq<Row>, now: nat -> int): (ms: seq<Message>)
    requires cfg.Valid()
    ensures |ms| == |Schedule(cfg, Times(dateParse, rows))|
  {
    var es := Schedule(cfg, Times(dateParse, rows));
    seq(|es|, k requires 0 <= k < |es| =>
      var r := es[k].row;
      Message(MessageKey(rows[r]), ToAvroPayload(rows[r], now(r))))
  }

  /** Message `k` comes from the `k`th published row, messages keep the
      file's order, and every value is a well-formed payload stamped with
      its publish time. */
  lemma MessagesInOrder(cfg: Config, dateParse: string -> Option<int>, rows: seq<Row>, now: nat -> int)
    requires cfg.Valid()
    ensures var es := Schedule(cfg, Times(dateParse, rows));
      var ms := Messages(cfg, dateParse, rows, now);
      && (forall k :: 0 <= k < |ms| ==>
            es[k].row < |rows| &&
            ms[k] == Message(MessageKey(rows[es[k].row]), ToAvroPayload(rows[es[k].row], now(es[k].row))))
      && (forall a, b :: 0 <= a < b < |ms| ==> es[a].row < es[b].row)
      && (forall k :: 0 <= k < |ms| ==> WellFormed(ms[k].value) && ms[k].value.time == now(es[k].row))
  {
    var ts := Times(dateParse, rows);
    var ds := Decisions(cfg, ts);
    EmittedOrdered(ds);
    var ms := Messages(cfg, dateParse, rows, now);
    forall k | 0 <= k < |ms|
      ensures WellFormed(ms[k].value)
    {
      var r := Schedule(cfg, ts)[k].row;
      ToAvroPayloadWellFormed(rows[r], now(r));
    }
  }
}

=== FILE: scheduler.dfy ===
/**
 The timed replay of load-data.js: the `stream.on("data")` handler decides,
 row by row, whether a CSV row is dropped, becomes the anchor of the replay,
 or is published after a wait scaled from the gap to the previous row.

 A row reaches the scheduler as its parsed timestamp: `None` when
 `parseCsvTimeToMs` gave null. The handler's two variables `started` and
 `prevRowTimeMs` are the `Clock`; `prevRowTimeMs` is set exactly when
 `started` becomes true, so the clock is either waiting for the anchor or
 running with the time of the previous published row.
 */
module Scheduler {
  import opened Wrappers
  import opened Civil

  /** The replay settings: `SPEED`, `MAX_DELAY_MS` (null disables the cap),
      the instant `new Date()` read at start-up, and the host's zone offset
      in milliseconds as a function of the instant. */
  datatype Config = Config(speed: real, maxDelay: Option<real>, startedAt: int, zone: int -> int) {
    /** A positive speed factor and a non-negative cap. */
    predicate Valid() {
      speed > 0.0 && (maxDelay.Some? ==> maxDelay.value >= 0.0)
    }
  }

  /** The settings load-data.js ships with. */
  const Speed: real := 1.0
  const MaxDelayMs: Option<real> := Some(10000.0)

  /** `started` and `prevRowTimeMs`. */
  datatype Clock = Waiting | Running(prev: int)

  /** What the handler does with one row. */
  datatype Decision =
    | Unparsed        // the time cell did not parse: dropped
    | BeforeStart     // earlier in the day than start-up: dropped
    | Anchor          // the first row at or after start-up: published at once
    | Wait(delay: real) // published after `delay` milliseconds
  {
    predicate Emits() {
      Anchor? || Wait?
    }

    /** The wait before the publish; zero for the anchor. */
    function Delay(): real {
      if Wait? then delay else 0.0
    }
  }

  /** One step's result: the clock for the next row and this row's fate. */
  datatype Outcome = Outcome(clock: Clock, decision: Decision)

  /** `nowTodMs`: the local time of day at start-up. */
  function StartTod(cfg: Config): (r: int)
    ensures 0 <= r < MsPerDay
  {
    MsSinceMidnight(cfg.startedAt, cfg.zone(cfg.startedAt))
  }

  /** `rowTodMs`: the local time of day of a row's instant. */
  function RowTod(cfg: Config, t: int): (r: int)
    ensures 0 <= r < MsPerDay
  {
    MsSinceMidnight(t, cfg.zone(t))
  }

  /** A row that may anchor the replay: its time parsed and its time of day
      is not before start-up's. */
  predicate Eligible(cfg: Config, t: Option<int>) {
    t.Some? && RowTod(cfg, t.value) >= StartTod(cfg)
  }

  /** `Math.max(0, rowTimeMs - prevRowTimeMs)`. */
  function Gap(prev: int, t: int): nat
  {
    if t - prev > 0 then t - prev else 0
  }

  /** `deltaMs / SPEED`, then `Math.min` with `MAX_DELAY_MS` when it is set. */
  function ScaledDelay(cfg: Config, prev: int, t: int): (d: real)
    requires cfg.Valid()
    ensures 0.0 <= d
    ensures cfg.maxDelay.Some? ==> d <= cfg.maxDelay.value
    ensures d * cfg.speed <= Gap(prev, t) as real
    ensures d * cfg.speed == Gap(prev, t) as real || (cfg.maxDelay.Some? && d == cfg.maxDelay.value)
    ensures t <= prev ==> d == 0.0
  {
    var raw := Gap(prev, t) as real / cfg.speed;
    assert raw * cfg.speed == Gap(prev, t) as real;
    if cfg.maxDelay.Some? && cfg.maxDelay.value < raw then
      assert cfg.maxDelay.value * cfg.speed <= raw * cfg.speed;
      cfg.maxDelay.value
    else
      raw
  }

  /** A later row never waits less behind the same predecessor. */
  lemma ScaledDelayMonotone(cfg: Config, prev: int, t1: int, t2: int)
    requires cfg.Valid() && t1 <= t2
    ensures ScaledDelay(cfg, prev, t1) <= ScaledDelay(cfg, prev, t2)
  {
    var a := Gap(prev, t1) as real;
    var b := Gap(prev, t2) as real;
    assert a <= b;
    assert b / cfg.speed - a / cfg.speed == (b - a) / cfg.speed;
  }

  /** One run of the `data` handler on a row whose parsed time is `t`. */
  function Step(cfg: Config, c: Clock, t: Option<int>): (o: Outcome)
    requires cfg.Valid()
    ensures t.None? <==> o.decision == Unparsed
    ensures t.None? ==> o.clock == c
    ensures o.decision == BeforeStart <==> c.Waiting? && t.Some? && !Eligible(cfg, t)
    ensures o.decision == Anchor <==> c.Waiting? && Eligible(cfg, t)
    ensures o.decision.Wait? <==> c.Running? && t.Some?
    ensures o.decision.Emits() ==> o.clock == Running(t.value)
    ensures !o.decision.Emits() ==> o.clock == c
    ensures o.decision.Wait? ==> o.decision.delay == ScaledDelay(cfg, c.prev, t.value)
  {
    match t
    case None => Outcome(c, Unparsed)
    case Some(ms) =>
      match c
      case Waiting =>
        if RowTod(cfg, ms) < StartTod(cfg) then Outcome(c, BeforeStart)
        else Outcome(Running(ms), Anchor)
      case Running(prev) =>
        Outcome(Running(ms), Wait(ScaledDelay(cfg, prev, ms)))
  }

  // ---------------------------------------------------------------------
  // A whole file
  // ---------------------------------------------------------------------

  /** The clock after the handler has seen the rows `ts`. */
  function ClockAfter(cfg: Config, ts: seq<Option<int>>): Clock
    requires cfg.Valid()
  {
    if ts == [] then Waiting
    else Step(cfg, ClockAfter(cfg, ts[..|ts| - 1]), ts[|ts| - 1]).clock
  }

  /** The decision taken for each row of `ts`, in file order. */
  function Decisions(cfg: Config, ts: seq<Option<int>>): (ds: seq<Decision>)
    requires cfg.Valid()
    ensures |ds| == |ts|
  {
    if ts == [] then []
    else
      var init := ts[..|ts| - 1];
      Decisions(cfg, init) + [Step(cfg, ClockAfter(cfg, init), ts[|ts| - 1]).decision]
  }

  /** One more row: the handler steps once from the clock the rows before
      it left behind. */
  lemma DecisionsSnoc(cfg: Config, ts: seq<Option<int>>, i: int)
    requires cfg.Valid() && 0 <= i < |ts|
    ensures ClockAfter(cfg, ts[..i + 1]) == Step(cfg, ClockAfter(cfg, ts[..i]), ts[i]).clock
    ensures Decisions(cfg, ts[..i + 1]) ==
      Decisions(cfg, ts[..i]) + [Step(cfg, ClockAfter(cfg, ts[..i]), ts[i]).decision]
  {
    assert ts[..i + 1][..i] == ts[..i];
  }

  /** The `i`th decision is the step taken on row `i` with the clock the
      rows before it left behind. */
  lemma {:induction false} DecisionAt(cfg: Config, ts: seq<Option<int>>, i: int)
    requires cfg.Valid() && 0 <= i < |ts|
    ensures Decisions(cfg, ts)[i] == Step(cfg, ClockAfter(cfg, ts[..i]), ts[i]).decision
    decreases |ts|
  {
    var init := ts[..|ts| - 1];
    if i < |ts| - 1 {
      DecisionAt(cfg, init, i);
      assert init[..i] == ts[..i];
      assert init[i] == ts[i];
    } else {
      assert ts[..i] == init;
    }
  }

  /** `started` is true exactly when some row so far could anchor. */
  lemma {:induction false} StartedIff(cfg: Config, ts: seq<Option<int>>)
    requires cfg.Valid()
    ensures ClockAfter(cfg, ts).Running? <==> exists j :: 0 <= j < |ts| && Eligible(cfg, ts[j])
    decreases |ts|
  {
    if ts != [] {
      var init := ts[..|ts| - 1];
      StartedIff(cfg, init);
      assert forall j :: 0 <= j < |init| ==> init[j] == ts[j];
      if Eligible(cfg, ts[|ts| - 1]) {
        assert 0 <= |ts| - 1 < |ts| && Eligible(cfg, ts[|ts| - 1]);
      }
    }
  }

  /** `started` never goes back to false. */
  lemma StartedStays(cfg: Config, ts: seq<Option<int>>, i: int, j: int)
    requires cfg.Valid() && 0 <= i <= j <= |ts|
    requires ClockAfter(cfg, ts[..i]).Running?
    ensures ClockAfter(cfg, ts[..j]).Running?
  {
    StartedIff(cfg, ts[..i]);
    var k :| 0 <= k < i && Eligible(cfg, ts[..i][k]);
    assert ts[..j][k] == ts[k];
    StartedIff(cfg, ts[..j]);
  }

  /** The index of the last row in `ts` whose time parsed. */
  function LastParsed(ts: seq<Option<int>>): (r: Option<nat>)
    ensures r.Some? ==> r.value < |ts| && ts[r.value].Some?
    ensures r.Some? ==> forall k :: r.value < k < |ts| ==> ts[k].None?
    ensures r.None? ==> forall k :: 0 <= k < |ts| ==> ts[k].None?
  {
    if ts == [] then None
    else if ts[|ts| - 1].Some? then Some(|ts| - 1)
    else LastParsed(ts[..|ts| - 1])
  }

  /** Once started, `prevRowTimeMs` is the time of the last row whose time
      parsed: rows that did not parse leave it alone. */
  lemma {:induction false} PrevIsLastParsed(cfg: Config, ts: seq<Option<int>>)
    requires cfg.Valid() && ClockAfter(cfg, ts).Running?
    ensures LastParsed(ts).Some?
    ensures ClockAfter(cfg, ts).prev == ts[LastParsed(ts).value].value
    decreases |ts|
  {
    var init := ts[..|ts| - 1];
    var last := ts[|ts| - 1];
    if last.None? {
      PrevIsLastParsed(cfg, init);
    }
  }

  /** A row is published exactly when its time parsed and it, or a row
      before it, could anchor: after start no row is filtered by time of day. */
  lemma EmitsIff(cfg: Config, ts: seq<Option<int>>, i: int)
    requires cfg.Valid() && 0 <= i < |ts|
    ensures Decisions(cfg, ts)[i].Emits() <==>
      ts[i].Some? && exists k :: 0 <= k <= i && Eligible(cfg, ts[k])
  {
    DecisionAt(cfg, ts, i);
    StartedIff(cfg, ts[..i]);
    assert forall k :: 0 <= k < i ==> ts[..i][k] == ts[k];
    if exists k :: 0 <= k <= i && Eligible(cfg, ts[k]) {
      var k :| 0 <= k <= i && Eligible(cfg, ts[k]);
      if k < i {
        assert ts[..i][k] == ts[k];
      }
    }
  }

  /** Row `i` is the anchor exactly when it is the first row that could be. */
  lemma AnchorIff(cfg: Config, ts: seq<Option<int>>, i: int)
    requires cfg.Valid() && 0 <= i < |ts|
    ensures Decisions(cfg, ts)[i] == Anchor <==>
      Eligible(cfg, ts[i]) && forall k :: 0 <= k < i ==> !Eligible(cfg, ts[k])
  {
    DecisionAt(cfg, ts, i);
    StartedIff(cfg, ts[..i]);
    assert forall k :: 0 <= k < i ==> ts[..i][k] == ts[k];
  }

  /** There is at most one anchor. */
  lemma AnchorUnique(cfg: Config, ts: seq<Option<int>>, i: int, j: int)
    requires cfg.Valid() && 0 <= i < |ts| && 0 <= j < |ts|
    requires Decisions(cfg, ts)[i] == Anchor && Decisions(cfg, ts)[j] == Anchor
    ensures i == j
  {
    AnchorIff(cfg, ts, i);
    AnchorIff(cfg, ts, j);
  }

  /** A row whose time did not parse is dropped, and it changes neither
      `started` nor `prevRowTimeMs`. */
  lemma UnparsedIgnored(cfg: Config, ts: seq<Option<int>>, i: int)
    requires cfg.Valid() && 0 <= i < |ts| && ts[i].None?
    ensures Decisions(cfg, ts)[i] == Unparsed
    ensures ClockAfter(cfg, ts[..i + 1]) == ClockAfter(cfg, ts[..i])
  {
    DecisionAt(cfg, ts, i);
    assert ts[..i + 1][..i] == ts[..i];
  }

  /** Each wait is measured from the previous row whose time parsed, and
      that row was itself published: skipped rows are never the reference. */
  lemma WaitFromPrevious(cfg: Config, ts: seq<Option<int>>, i: int)
    requires cfg.Valid() && 0 <= i < |ts| && Decisions(cfg, ts)[i].Wait?
    ensures LastParsed(ts[..i]).Some?
    ensures var j := LastParsed(ts[..i]).value;
      && j < i
      && Decisions(cfg, ts)[j].Emits()
      && (forall k :: j < k < i ==> ts[k].None?)
      && ts[i].Some?
      && Decisions(cfg, ts)[i].delay == ScaledDelay(cfg, ts[j].value, ts[i].value)
  {
    DecisionAt(cfg, ts, i);
    PrevIsLastParsed(cfg, ts[..i]);
    var j := LastParsed(ts[..i]).value;
    assert ts[..i][j] == ts[j];
    assert forall k :: j < k < i ==> ts[..i][k] == ts[k];
    StartedIff(cfg, ts[..i]);
    var k :| 0 <= k < i && Eligible(cfg, ts[..i][k]);
    assert k <= j;
    EmitsIff(cfg, ts, j);
  }

  /** Skip then catch up: when the first `k` rows parse but are earlier in
      the day than start-up and row `k` is not, exactly those `k` rows are
      dropped and row `k` is the anchor, published without a wait. */
  lemma SkipBeforeCatchUp(cfg: Config, ts: seq<Option<int>>, k: int)
    requires cfg.Valid() && 0 <= k < |ts|
    requires forall j :: 0 <= j < k ==> ts[j].Some? && !Eligible(cfg, ts[j])
    requires Eligible(cfg, ts[k])
    ensures forall j :: 0 <= j < k ==> Decisions(cfg, ts)[j] == BeforeStart
    ensures Decisions(cfg, ts)[k] == Anchor && Decisions(cfg, ts)[k].Delay() == 0.0
  {
    forall j | 0 <= j < k
      ensures Decisions(cfg, ts)[j] == BeforeStart
    {
      DecisionAt(cfg, ts, j);
      StartedIff(cfg, ts[..j]);
      assert forall m :: 0 <= m < j ==> ts[..j][m] == ts[m];
    }
    AnchorIff(cfg, ts, k);
  }

  // ---------------------------------------------------------------------
  // The emission trace
  // ---------------------------------------------------------------------

  /** Row `row` of the file is published after `delay` milliseconds. */
  datatype Emission = Emission(row: nat, delay: real)

  /** The published rows of `ds`, in order, with their waits. */
  function Emitted(ds: seq<Decision>): (es: seq<Emission>)
    ensures forall n :: 0 <= n < |es| ==> es[n].row < |ds|
  {
    if ds == [] then []
    else
      var n := |ds| - 1;
      Emitted(ds[..n]) + (if ds[n].Emits() then [Emission(n, ds[n].Delay())] else [])
  }

  /** An emission lists a row exactly when that row was published, with
      that row's wait. */
  lemma {:induction false} EmittedIff(ds: seq<Decision>, e: Emission)
    ensures e in Emitted(ds) <==> e.row < |ds| && ds[e.row].Emits() && e.delay == ds[e.row].Delay()
    decreases |ds|
  {
    if ds != [] {
      var n := |ds| - 1;
      EmittedIff(ds[..n], e);
      if e.row < n {
        assert ds[..n][e.row] == ds[e.row];
      }
    }
  }

  /** Emissions follow the file order strictly. */
  lemma {:induction false} EmittedOrdered(ds: seq<Decision>)
    ensures forall a, b :: 0 <= a < b < |Emitted(ds)| ==> Emitted(ds)[a].row < Emitted(ds)[b].row
    decreases |ds|
  {
    if ds != [] {
      var n := |ds| - 1;
      EmittedOrdered(ds[..n]);
    }
  }

  /** What the replay publishes for a file whose rows carry the times `ts`. */
  function Schedule(cfg: Config, ts: seq<Option<int>>): seq<Emission>
    requires cfg.Valid()
  {
    Emitted(Decisions(cfg, ts))
  }

  /** A trace grows by the emission of the decision appended, if any. */
  lemma EmittedSnoc(ds: seq<Decision>, d: Decision)
    ensures Emitted(ds + [d]) == Emitted(ds) + if d.Emits() then [Emission(|ds|, d.Delay())] else []
  {
    assert (ds + [d])[..|ds|] == ds;
  }

  /** Appending a row to the file: the handler steps once more, and the
      schedule grows by that row's emission, if any. */
  lemma ScheduleSnoc(cfg: Config, ts: seq<Option<int>>, t: Option<int>)
    requires cfg.Valid()
    ensures ClockAfter(cfg, ts + [t]) == Step(cfg, ClockAfter(cfg, ts), t).clock
    ensures var d := Step(cfg, ClockAfter(cfg, ts), t).decision;
      Schedule(cfg, ts + [t]) == Schedule(cfg, ts) + if d.Emits() then [Emission(|ts|, d.Delay())] else []
  {
    assert (ts + [t])[..|ts|] == ts;
    EmittedSnoc(Decisions(cfg, ts), Step(cfg, ClockAfter(cfg, ts), t).decision);
  }

  /** The schedule publishes exactly the rows whose time parsed from the
      anchor on, each with the wait its decision gave it. */
  lemma ScheduleIff(cfg: Config, ts: seq<Option<int>>, e: Emission)
    requires cfg.Valid()
    ensures e in Schedule(cfg, ts) <==>
      && e.row < |ts| && ts[e.row].Some?
      && (exists k :: 0 <= k <= e.row && Eligible(cfg, ts[k]))
      && e.delay == Decisions(cfg, ts)[e.row].Delay()
  {
    EmittedIff(Decisions(cfg, ts), e);
    if e.row < |ts| {
      EmitsIff(cfg, ts, e.row);
    }
  }

  /** Every wait in the schedule is non-negative and, when the cap is set,
      at most the cap. */
  lemma ScheduleDelaysBounded(cfg: Config, ts: seq<Option<int>>, e: Emission)
    requires cfg.Valid() && e in Schedule(cfg, ts)
    ensures 0.0 <= e.delay
    ensures cfg.maxDelay.Some? ==> e.delay <= cfg.maxDelay.value
  {
    var ds := Decisions(cfg, ts);
    EmittedIff(ds, e);
    DecisionAt(cfg, ts, e.row);
  }

  /** Without a row that could anchor, nothing is published. */
  lemma NoAnchorNoSchedule(cfg: Config, ts: seq<Option<int>>)
    requires cfg.Valid()
    requires forall k :: 0 <= k < |ts| ==> !Eligible(cfg, ts[k])
    ensures Schedule(cfg, ts) == []
  {
    if Schedule(cfg, ts) != [] {
      var e := Schedule(cfg, ts)[0];
      ScheduleIff(cfg, ts, e);
    }
  }

  /** The schedule starts with the anchor, published without a wait. */
  lemma ScheduleStartsAtAnchor(cfg: Config, ts: seq<Option<int>>)
    requires cfg.Valid() && Schedule(cfg, ts) != []
    ensures Decisions(cfg, ts)[Schedule(cfg, ts)[0].row] == Anchor
    ensures Schedule(cfg, ts)[0].delay == 0.0
  {
    var ds := Decisions(cfg, ts);
    var e := Schedule(cfg, ts)[0];
    EmittedIff(ds, e);
    EmitsIff(cfg, ts, e.row);
    var k :| 0 <= k <= e.row && Eligible(cfg, ts[k]);
    var f := FirstEligible(cfg, ts, k);
    AnchorIff(cfg, ts, f);
    EmittedIff(ds, Emission(f, 0.0));
    EmittedOrdered(ds);
    var m :| 0 <= m < |Emitted(ds)| && Emitted(ds)[m] == Emission(f, 0.0);
  }

  /** The first row that could anchor, given one at `a`. */
  ghost function FirstEligible(cfg: Config, ts: seq<Option<int>>, a: int): (f: int)
    requires 0 <= a < |ts| && Eligible(cfg, ts[a])
    ensures 0 <= f <= a && Eligible(cfg, ts[f])
    ensures forall k :: 0 <= k < f ==> !Eligible(cfg, ts[k])
    decreases a
  {
    if forall k :: 0 <= k < a ==> !Eligible(cfg, ts[k]) then a
    else
      var k :| 0 <= k < a && Eligible(cfg, ts[k]);
      FirstEligible(cfg, ts, k)
  }
}

/**
 Worked replays: a file of three rows dated 2025-11-01 at 00:00:04,
 00:00:04 and 00:00:09 UTC, replayed on a host in UTC started at midnight.
 */
module SchedulerExamples {
  import opened Wrappers
  import opened Civil
  import opened Scheduler

  /** 2025-11-01T00:00:00Z in epoch milliseconds. */
  const Midnight: int := 1_761_955_200_000

  function Utc(t: int): int { 0 }

  function Replay(speed: real, maxDelay: Option<real>): Config {
    Config(speed, maxDelay, Midnight, Utc)
  }

  const Rows: seq<Option<int>> := [Some(Midnight + 4000), Some(Midnight + 4000), Some(Midnight + 9000)]

  /** Start-up is at midnight and the first row is four seconds past it. */
  lemma ExampleTimesOfDay(speed: real, maxDelay: Option<real>)
    ensures StartTod(Replay(speed, maxDelay)) == 0
    ensures RowTod(Replay(speed, maxDelay), Midnight + 4000) == 4000
  {
    TimeOfDayOnDay(Midnight, 0, 20393, 0);
    TimeOfDayOnDay(Midnight + 4000, 0, 20393, 4000);
  }

  /** The row at 00:00:04 anchors the replay. */
  lemma FirstRowAnchors(speed: real, maxDelay: Option<real>)
    requires Replay(speed, maxDelay).Valid()
    ensures ClockAfter(Replay(speed, maxDelay), [Some(Midnight + 4000)]) == Running(Midnight + 4000)
    ensures Schedule(Replay(speed, maxDelay), [Some(Midnight + 4000)]) == [Emission(0, 0.0)]
  {
    var cfg := Replay(speed, maxDelay);
    ExampleTimesOfDay(speed, maxDelay);
    ScheduleSnoc(cfg, [], Some(Midnight + 4000));
    assert [] + [Some(Midnight + 4000)] == [Some(Midnight + 4000)];
  }

  /** The first row anchors, the repeat waits nothing, and the last waits
      for the scaled five-second gap. */
  lemma ThreeRows(speed: real, maxDelay: Option<real>)
    requires Replay(speed, maxDelay).Valid()
    ensures Schedule(Replay(speed, maxDelay), Rows) ==
      [Emission(0, 0.0), Emission(1, 0.0), Emission(2, ScaledDelay(Replay(speed, maxDelay), Midnight + 4000, Midnight + 9000))]
  {
    var cfg := Replay(speed, maxDelay);
    FirstRowAnchors(speed, maxDelay);
    assert Rows[..1] == [Some(Midnight + 4000)];
    ScheduleSnoc(cfg, Rows[..1], Rows[1]);
    assert Rows[..1] + [Rows[1]] == Rows[..2];
    ScheduleSnoc(cfg, Rows[..2], Rows[2]);
    assert Rows[..2] + [Rows[2]] == Rows;
  }

  /** With the shipped settings the last row waits 5000 ms. */
  lemma ShippedSettings()
    ensures Replay(Speed, MaxDelayMs).Valid()
    ensures Schedule(Replay(Speed, MaxDelayMs), Rows) ==
      [Emission(0, 0.0), Emission(1, 0.0), Emission(2, 5000.0)]
  {
    ThreeRows(Speed, MaxDelayMs);
  }

  /** At double speed it waits 2500 ms. */
  lemma DoubleSpeed()
    ensures Schedule(Replay(2.0, MaxDelayMs), Rows) ==
      [Emission(0, 0.0), Emission(1, 0.0), Emission(2, 2500.0)]
  {
    ThreeRows(2.0, MaxDelayMs);
  }

  /** A one-second cap cuts the five-second gap to 1000 ms. */
  lemma TightCap()
    ensures Schedule(Replay(Speed, Some(1000.0)), Rows) ==
      [Emission(0, 0.0), Emission(1, 0.0), Emission(2, 1000.0)]
  {
    ThreeRows(Speed, Some(1000.0));
  }

  /** A row whose time does not parse, between two that do, is skipped and
      the next row's wait is measured from the row before it. */
  lemma BadRowSkipped()
    ensures Schedule(Replay(Speed, MaxDelayMs), [Some(Midnight + 4000), None, Some(Midnight + 9000)]) ==
      [Emission(0, 0.0), Emission(2, 5000.0)]
  {
    var cfg := Replay(Speed, MaxDelayMs);
    var ts := [Some(Midnight + 4000), None, Some(Midnight + 9000)];
    FirstRowAnchors(Speed, MaxDelayMs);
    assert ts[..1] == [Some(Midnight + 4000)];
    ScheduleSnoc(cfg, ts[..1], ts[1]);
    assert ts[..1] + [ts[1]] == ts[..2];
    ScheduleSnoc(cfg, ts[..2], ts[2]);
    assert ts[..2] + [ts[2]] == ts;
  }
}

=== FILE: text.dfy ===
/**
 Character-level helpers standing in for the JavaScript string built-ins the
 row normalisers use: `String.prototype.trim` and `String.prototype.toLowerCase`.
 */
module Text {

  /** The characters `trim` removes: ECMAScript WhiteSpace and LineTerminator
      (tab, LF, VT, FF, CR, space, NBSP, the Unicode space separators, LS, PS
      and the byte-order mark). */
  const Blanks: set<char> := {
    '\t', '\n', '\U{000B}', '\U{000C}', '\r', ' ', '\U{00A0}', '\U{1680}',
    '\U{2000}', '\U{2001}', '\U{2002}', '\U{2003}', '\U{2004}', '\U{2005}',
    '\U{2006}', '\U{2007}', '\U{2008}', '\U{2009}', '\U{200A}', '\U{2028}',
    '\U{2029}', '\U{202F}', '\U{205F}', '\U{3000}', '\U{FEFF}'
  }

  predicate IsWhitespace(c: char) {
    c in Blanks
  }

  predicate AllWhitespace(s: string) {
    forall i :: 0 <= i < |s| ==> IsWhitespace(s[i])
  }

  /** A string `trim` leaves as it is: empty, or starting and ending with a
      non-whitespace character. */
  predicate Trimmed(s: string) {
    s == [] || (!IsWhitespace(s[0]) && !IsWhitespace(s[|s| - 1]))
  }

  /** `String.prototype.trimStart`: drops the longest all-whitespace prefix. */
  function TrimStart(s: string): (r: string)
    ensures |r| <= |s|
    ensures r == [] || !IsWhitespace(r[0])
  {
    if |s| > 0 && IsWhitespace(s[0]) then TrimStart(s[1..]) else s
  }

  /** What `trimStart` drops is a prefix made of whitespace only. */
  lemma {:induction false} TrimStartDropsBlanks(s: string)
    ensures TrimStart(s) == s[|s| - |TrimStart(s)|..]
    ensures AllWhitespace(s[..|s| - |TrimStart(s)|])
  {
    if |s| > 0 && IsWhitespace(s[0]) {
      var r := TrimStart(s[1..]);
      TrimStartDropsBlanks(s[1..]);
      assert s[1..][|s| - 1 - |r|..] == s[|s| - |r|..];
      assert s[..|s| - |r|] == [s[0]] + s[1..][..|s| - 1 - |r|];
    }
  }

  /** `String.prototype.trimEnd`: drops the longest all-whitespace suffix. */
  function TrimEnd(s: string): (r: string)
    ensures |r| <= |s|
    ensures r == [] || !IsWhitespace(r[|r| - 1])
  {
    if |s| > 0 && IsWhitespace(s[|s| - 1]) then TrimEnd(s[..|s| - 1]) else s
  }

  /** What `trimEnd` drops is a suffix made of whitespace only. */
  lemma {:induction false} TrimEndDropsBlanks(s: string)
    ensures TrimEnd(s) == s[..|TrimEnd(s)|]
    ensures AllWhitespace(s[|TrimEnd(s)|..])
  {
    if |s| > 0 && IsWhitespace(s[|s| - 1]) {
      var r := TrimEnd(s[..|s| - 1]);
      TrimEndDropsBlanks(s[..|s| - 1]);
      assert s[|r|..] == s[..|s| - 1][|r|..] + [s[|s| - 1]];
    }
  }

  /** `String.prototype.trim`. */
  function Trim(s: string): (r: string)
    ensures Trimmed(r)
    ensures r == [] <==> AllWhitespace(s)
    ensures |r| <= |s|
  {
    var t := TrimStart(s);
    var r := TrimEnd(t);
    TrimStartDropsBlanks(s);
    TrimEndDropsBlanks(t);
    assert t != [] ==> t[0] == s[|s| - |t|];
    assert t[0..] == t && s[..|s|] == s;
    r
  }

  /** Trimming is exactly the removal of whitespace padding: whatever
      whitespace surrounds a trimmed string, `trim` gives that string back. */
  lemma {:induction false} TrimPadded(pre: string, x: string, post: string)
    requires AllWhitespace(pre) && AllWhitespace(post) && Trimmed(x)
    ensures Trim(pre + x + post) == x
  {
    if x == [] {
      assert AllWhitespace(pre + x + post) by {
        forall i | 0 <= i < |pre + x + post| ensures IsWhitespace((pre + x + post)[i]) {
          if i >= |pre| {
            assert (pre + x + post)[i] == post[i - |pre|];
          }
        }
      }
    } else {
      assert pre + x + post == pre + (x + post);
      TrimStartPadded(pre, x + post);
      TrimEndPadded(x, post);
    }
  }

  lemma {:induction false} TrimStartPadded(pre: string, x: string)
    requires AllWhitespace(pre)
    requires x == [] || !IsWhitespace(x[0])
    ensures TrimStart(pre + x) == x
  {
    if pre != [] {
      assert (pre + x)[1..] == pre[1..] + x;
      TrimStartPadded(pre[1..], x);
    }
  }

  lemma {:induction false} TrimEndPadded(x: string, post: string)
    requires AllWhitespace(post)
    requires x == [] || !IsWhitespace(x[|x| - 1])
    ensures TrimEnd(x + post) == x
  {
    if post == [] {
      assert x + post == x;
    } else {
      var n := |post| - 1;
      assert (x + post)[..|x + post| - 1] == x + post[..n];
      TrimEndPadded(x, post[..n]);
    }
  }

  /** `trim` is idempotent. */
  lemma TrimIdempotent(s: string)
    ensures Trim(Trim(s)) == Trim(s)
  {
    TrimPadded([], Trim(s), []);
    assert [] + Trim(s) + [] == Trim(s);
  }

  /** `toLowerCase` on one character, as far as the normalisers can observe
      it: ASCII capitals and KELVIN SIGN (the one non-ASCII character whose
      lower case is an ASCII letter) are lowered; every other character is
      kept, which never turns a non-ASCII character into an ASCII one. */
  function LowerChar(c: char): (r: char)
    ensures 'A' <= c <= 'Z' ==> r as int == c as int + 32
    ensures r != c ==> ('A' <= c <= 'Z' || c == '\U{212A}')
    ensures 'a' <= r <= 'z' ==> ('a' <= c <= 'z' || 'A' <= c <= 'Z' || c == '\U{212A}')
  {
    if 'A' <= c <= 'Z' then (c as int + 32) as char
    else if c == '\U{212A}' then 'k'
    else c
  }

  /** `String.prototype.toLowerCase`, character by character. */
  function Lower(s: string): string
  {
    seq(|s|, i requires 0 <= i < |s| => LowerChar(s[i]))
  }

  /** `c` is the character `w` or one of its capitals: the ASCII capital of
      a lower-case ASCII letter, and KELVIN SIGN as well for 'k'. */
  predicate CaseVariant(c: char, w: char) {
    || c == w
    || ('a' <= w <= 'z' && c as int == w as int - 32)
    || (w == 'k' && c == '\U{212A}')
  }

  /** A word of lower-case ASCII letters, as the normalisers compare with. */
  predicate LowerAsciiWord(word: string) {
    forall i :: 0 <= i < |word| ==> 'a' <= word[i] <= 'z'
  }

  /** `s` spells `word` when upper and lower case are not told apart. */
  predicate SpellsIgnoringCase(s: string, word: string) {
    |s| == |word| && forall i :: 0 <= i < |s| ==> CaseVariant(s[i], word[i])
  }

  /** Lower-casing one character gives a lower-case ASCII letter exactly
      when the character is a case variant of that letter. */
  lemma LowerCharIffVariant(c: char, w: char)
    requires 'a' <= w <= 'z'
    ensures LowerChar(c) == w <==> CaseVariant(c, w)
  {
    if 'A' <= c <= 'Z' {
      assert LowerChar(c) as int == c as int + 32;
    }
  }

  /** Lower-casing a string and comparing it with a lower-case ASCII word
      is case-blind spelling. */
  lemma LowerEqualsIffSpells(s: string, word: string)
    requires LowerAsciiWord(word)
    ensures Lower(s) == word <==> SpellsIgnoringCase(s, word)
  {
    if |s| == |word| {
      forall i | 0 <= i < |s|
        ensures LowerChar(s[i]) == word[i] <==> CaseVariant(s[i], word[i])
      {
        LowerCharIffVariant(s[i], word[i]);
      }
      if SpellsIgnoringCase(s, word) {
        assert Lower(s) == word;
      }
    }
  }
}

=== FILE: wrappers.dfy ===
/** The optional-value datatype used for JavaScript `null` / `undefined`. */
module Wrappers {

  /** `None` stands for JavaScript `null` or `undefined`. */
  datatype Option<+T> = None | Some(value: T) {

    /** Returns the value in Some, or `default` for None. */
    function GetOr(default: T): T {
      if Some? then value else default
    }
  }
}
